=== FILE: README.md ===
# hdlmake core, modelled in Dafny

hdlmake generates Makefiles and tool scripts for HDL projects from
`Manifest.py` files. This project models four parts of it and proves
properties of each model:

- **The VHDL dependency scanner** (`VHDLParser.parse`). It strips comments
  and one-character string literals from a VHDL file. It then runs eleven
  passes over the text in a fixed order: `use`, entity, architecture,
  package, component, signal, constant, record, function, instance and
  library. Each pass replaces what it matched by a marker and records the
  relations the file provides and requires. A relation is a name, a library
  and a kind. The kind is a package, an entity or an architecture.
  - `comments.dfy` models the character-level stripper.
  - `lexer.dfy` cuts the text into words, punctuation and markers. Each one
    records whether it starts a line and whether whitespace precedes it.
  - `passes.dfy` holds one hand-written matcher per pattern and runs one
    pass over the lexemes.
  - `scanner.dfy` runs the passes in order and updates the dependency
    record (`dep_file.dfy`).
  - `scanner_examples.dfy` states what the passes do on representative
    declarations. The keywords are written in any letter case.
- **The Quartus back end** (`quartus.dfy`):
  - the TCL command codes;
  - how one property becomes a `set_*_assignment` line;
  - the device-family guess from the device name;
  - the device string;
  - the list of commands the project script is made of.
- **The Xilinx (Vivado) back end** (`xilinx.dfy`):
  - the property list a project is created with;
  - how each property is routed to the project, the synthesis run or the
    implementation run;
  - which of two templates its line is written with;
  - the three scripts the lines are placed in.
- **The module core** (`module_core.dfy`):
  - the `force_tool`, `library` and `action` directives;
  - the check of the paths a manifest names, and how they are made absolute;
  - the library given to every source file a module creates.
  
  The file system is a value handed in: the paths that exist, the
  directories, and each directory's entries.

`strings.dfy` holds the string helpers the models share. They are ASCII
case mapping, Python's `split` with and without a separator, and `join`.
`outcomes.dfy` holds `Result` and `Option`. An exception the source raises
is an `Err` value in the model.

## Model

| member | source | states |
|---|---|---|
| Comments.CommentToLineEnd | hdlmake/sourcefiles/vhdl_parser.py:54-56 | a `--` comment is removed up to, not including, the end of its line, and the next line is scanned as if the comment were not there |
| Comments.CommentInvisible | hdlmake/sourcefiles/vhdl_parser.py:54-56 | text with a line comment strips to the same result as the text without it, after any prefix that does not end in a quote or a hyphen |
| Comments.CommentInvisibleAfter | hdlmake/sourcefiles/vhdl_parser.py:54-56 | the same, stated by induction over the prefix: comments and literals inside the prefix are stripped identically with and without the later comment |
| Comments.OneCharStringInvisible | hdlmake/sourcefiles/vhdl_parser.py:54-56 | after a prefix with no `"`, no `--` and no trailing `-`, a string literal of one character, quotes included, disappears from the stripped text |
| Comments.EmptyStringInvisible | hdlmake/sourcefiles/vhdl_parser.py:54-56 | after a prefix with no `"`, no `--` and no trailing `-`, an empty string literal `""` disappears when no third quote follows it |
| Comments.LongStringKept | hdlmake/sourcefiles/vhdl_parser.py:54-56 | a quote followed by two non-quote characters is not a literal the stripper removes: the quote stays |
| Comments.StripPlainPrefix | hdlmake/sourcefiles/vhdl_parser.py:54-56 | text with no `"`, no `--` and no trailing `-` passes through the stripper unchanged, and stripping resumes after it |
| Lexer.LexSpellsText | hdlmake/sourcefiles/vhdl_parser.py:60-255 | cutting the text into lexemes loses nothing but whitespace: the lexemes spell the text with its whitespace removed |
| Passes.MatchArchitecture | hdlmake/sourcefiles/vhdl_parser.py:99-119 | `architecture A of E is` provides exactly one architecture and requires exactly one entity, both named `E` as written (the word after `of`, lines 112-115) and in the file's library |
| Passes.MatchPackage | hdlmake/sourcefiles/vhdl_parser.py:122-136 | a matched package header provides exactly one package, named as written after `package`, in the file's library, and nothing else |
| Passes.MatchComponent | hdlmake/sourcefiles/vhdl_parser.py:139-151 | a component declaration is consumed and adds no relation |
| Passes.MatchDeclaration | hdlmake/sourcefiles/vhdl_parser.py:154-181 | signal and constant declarations are consumed up to their semicolon and add no relation |
| Passes.MatchRecord | hdlmake/sourcefiles/vhdl_parser.py:185-197 | a record type is consumed and adds no relation |
| Passes.MatchFunction | hdlmake/sourcefiles/vhdl_parser.py:200-216 | a function declaration or body is consumed and adds no relation |
| Passes.MatchLibrary | hdlmake/sourcefiles/vhdl_parser.py:243-255 | a library clause is consumed, adds no relation and only names a library |
| Passes.UseMatchContributes | hdlmake/sourcefiles/vhdl_parser.py:60-78 | a `use L.N` clause requires exactly one package: `N` lower-cased, from `L` lower-cased, or from the file's own library when that is `work` |
| Passes.EntityMatchContributes | hdlmake/sourcefiles/vhdl_parser.py:81-96 | an entity header provides exactly one entity, named as written after `entity`, in the file's own library, and requires nothing |
| Passes.InstanceMatchContributes | hdlmake/sourcefiles/vhdl_parser.py:219-240 | an instantiation requires exactly one entity, named as written. When the label is followed by `entity L.e` and the rest of the pattern (the optional group is taken), it is `e` from `L`, or from the file's library when `L` is exactly `work`; otherwise it is the word after the colon, in the file's library |
| Passes.MatchContributes | hdlmake/sourcefiles/vhdl_parser.py:60-255 | whatever pass matches, it contributes only the relation kinds that pass produces |
| Passes.RunFrom | hdlmake/sourcefiles/vhdl_parser.py:60-255 | a pass adds only that pass's relation kinds and never lengthens the text. Where a match starts, the output starts with the pass's marker and the match's relations come first; where none starts, the lexeme is kept |
| Passes.MarkerInert | hdlmake/sourcefiles/vhdl_parser.py:60-255 | no pattern starts at a marker an earlier pass left |
| Passes.MarkersInert | hdlmake/sourcefiles/vhdl_parser.py:60-255 | any pass over markers only finds nothing and leaves them unchanged |
| Passes.DeclarationHidesInstance | hdlmake/sourcefiles/vhdl_parser.py:139-240 | text one component, signal, constant, record or function match consumes whole yields no instance require afterwards |
| Passes.RunSingleMatch | hdlmake/sourcefiles/vhdl_parser.py:60-255 | when one match covers the whole text, the pass leaves only its marker and adds exactly what that match adds |
| VhdlScanner.RunPasses | hdlmake/sourcefiles/vhdl_parser.py:60-255 | running the passes only appends relations: what a file already had is kept as a prefix |
| VhdlScanner.Parse | hdlmake/sourcefiles/vhdl_parser.py:43-258 | parsing fails exactly on a file already parsed; otherwise the file is marked parsed, keeps its path and library, and its relations only grow |
| VhdlScanner.ScanOrder | hdlmake/sourcefiles/vhdl_parser.py:60-255 | provides come out grouped by pass order (entities, then architectures, then packages). Requires come out as packages, then entities. Every require has the shape its pass gives it |
| VhdlScanner.Trace | hdlmake/sourcefiles/vhdl_parser.py:60-255 | the result of each pass, one per pass, each contributing only what its pass may contribute |
| VhdlScanner.TraceChain | hdlmake/sourcefiles/vhdl_parser.py:58-255 | each traced pass runs on the buffer the pass before it left |
| VhdlScanner.RunPassesTrace | hdlmake/sourcefiles/vhdl_parser.py:60-255 | running passes appends, in order, everything the passes of the trace provide and require |
| VhdlScanner.TraceParts | hdlmake/sourcefiles/vhdl_parser.py:60-255 | over eleven passes in the scanner's order, the requires are the `use` packages, then the architectures' entities, then the instances' entities; the provides are the entities, the architectures, the packages |
| VhdlScanner.ScanParts | hdlmake/sourcefiles/vhdl_parser.py:60-255 | a scan requires the `use` pass's packages, then one entity per architecture provide, with its name and in its order (lines 112-115), then the instance pass's entities (line 240); it provides the entity pass's entities, the architecture pass's architectures and the package pass's packages |
| VhdlScanner.PassesParts | hdlmake/sourcefiles/vhdl_parser.py:60-255 | the same decomposition for any list of passes in the scanner's order |
| VhdlScanner.PassOrderSorted | hdlmake/sourcefiles/vhdl_parser.py:60-255 | along the fixed pass order, the kinds the passes provide and require never fall back to an earlier rank |
| VhdlScanner.ParseIgnoresLineComment | hdlmake/sourcefiles/vhdl_parser.py:53-58 | a line comment changes nothing the parser records, after any text that does not end in a quote or a hyphen |
| VhdlScanner.ParseIgnoresCharLiteral | hdlmake/sourcefiles/vhdl_parser.py:53-58 | after a prefix with no `"`, no `--` and no trailing `-`, a one-character string literal changes nothing the parser records |
| VhdlScanner.CommentOnlyFile | hdlmake/sourcefiles/vhdl_parser.py:43-258 | a file holding only a comment is marked parsed and gains no relation |
| VhdlScanner.RunPassesEmpty | hdlmake/sourcefiles/vhdl_parser.py:60-255 | an empty text gains no relation from any pass |
| ScannerExamples.UseWorkIsFileLibrary | hdlmake/sourcefiles/vhdl_parser.py:60-78 | `use work.p` in any letter case requires package `p`, lower-cased, in the file's library |
| ScannerExamples.UseOtherLibraryLowered | hdlmake/sourcefiles/vhdl_parser.py:60-78 | `use L.p` requires package `p` from library `L`, both lower-cased |
| ScannerExamples.UseMustStartLine | hdlmake/sourcefiles/vhdl_parser.py:60-62 | a `use` that does not start its line is not matched |
| ScannerExamples.UseClauseMatches | hdlmake/sourcefiles/vhdl_parser.py:60-62 | `use L.N` at the start of a line, in any letter case, is one use clause spanning all four lexemes |
| ScannerExamples.PackageHeaderProvides | hdlmake/sourcefiles/vhdl_parser.py:122-136 | `package N is`, keywords in any letter case, provides package `N`, as written, in the file's library |
| ScannerExamples.PackageHeaderMatches | hdlmake/sourcefiles/vhdl_parser.py:122-126 | the package pattern matches that header as a whole |
| ScannerExamples.EntityHeaderProvides | hdlmake/sourcefiles/vhdl_parser.py:81-96 | `entity N is end N;` provides entity `N`, as written, in the file's library |
| ScannerExamples.EntityHeaderMatches | hdlmake/sourcefiles/vhdl_parser.py:81-85 | the entity pattern matches that header as a whole |
| ScannerExamples.ArchitectureKeyedOnEntity | hdlmake/sourcefiles/vhdl_parser.py:99-119 | `architecture A of E is` provides and requires relations named after the entity `E`, not after `A` |
| ScannerExamples.InstanceWithLibrary | hdlmake/sourcefiles/vhdl_parser.py:219-240 | `u: entity L.e port map` requires entity `e` from `L`, or from the file's library when `L` is exactly `work` |
| ScannerExamples.InstanceWithoutLibrary | hdlmake/sourcefiles/vhdl_parser.py:219-240 | `u: e generic map` requires entity `e` from the file's library |
| ScannerExamples.ComponentHidesInstance | hdlmake/sourcefiles/vhdl_parser.py:139-240 | an instantiation-like text inside a component declaration produces no require, because the component pass runs first |
| ScannerExamples.ComponentPassOnDeclaration | hdlmake/sourcefiles/vhdl_parser.py:139-151 | the component pass replaces the whole declaration by one marker |
| ScannerExamples.ComponentDeclarationEnds | hdlmake/sourcefiles/vhdl_parser.py:139-142 | the declaration ends at its `end component ;` |
| ScannerExamples.ComponentBodyProbes | hdlmake/sourcefiles/vhdl_parser.py:139-142 | nothing inside the declaration body ends it early |
| ScannerExamples.InstancePassOnDeclaration | hdlmake/sourcefiles/vhdl_parser.py:219-240 | without the component pass, the instance pass would read the declaration's body as an instantiation |
| Quartus.CodesOfTable | hdlmake/tools/quartus.py:94-102 | the command table has exactly the codes 0 to 3 |
| Quartus.CommandName | hdlmake/tools/quartus.py:159-160 | the reversed table gives a command name exactly for the four codes, and that name maps back to the code; any other code is an error |
| Quartus.CommandNameInverts | hdlmake/tools/quartus.py:99-102 | reversing the table and looking up a name's code gives the name back |
| Quartus.EmitWords | hdlmake/tools/quartus.py:147-178 | a property fails exactly on an unknown code or a `name` without `value`. The command comes first. Only the command appears when no optional field is set. `-name`, the name and the quoted value stand together |
| Quartus.EmitWordsByTable | hdlmake/tools/quartus.py:161-178 | the words are the command followed by each set field's flag and value, in the order what, name, from, tag, to, section_id |
| Quartus.EmitWordsByFields | hdlmake/tools/quartus.py:161-178 | the same words, grouped field by field |
| Quartus.AssignmentWords | hdlmake/tools/quartus.py:147-178 | a property with only a name and a value emits the command, `-name`, the name and the quoted value, nothing else |
| Quartus.EmitProperty | hdlmake/tools/quartus.py:147-179 | the line fails exactly when the words do, with their error, and a property with no fields is the bare command |
| Quartus.EmitPropertySplits | hdlmake/tools/quartus.py:179 | when no word contains a space, splitting the line at spaces gives the words back |
| Quartus.GlobalAssignmentLine | hdlmake/tools/quartus.py:185-196 | a name and value make `set_global_assignment -name N \"V\"` |
| Quartus.LastMatch | hdlmake/tools/quartus.py:115-131 | no family is found exactly when no pattern matches; a found family belongs to a matching pattern, and the last one wins |
| Quartus.GuessFamily | hdlmake/tools/quartus.py:125-131 | the guessing loop returns the family of the last pattern, in table order, that matches the upper-cased device |
| Quartus.FamilyString | hdlmake/tools/quartus.py:112-135 | a given family is kept; otherwise the result is the family of the last pattern, in table order, that matches the upper-cased device, and no match is an error |
| Quartus.CycloneFourEGuessed | hdlmake/tools/quartus.py:115-131 | a device starting `EP4CE`, in any case, is `Cyclone IV E` and not the earlier `Cyclone IV` |
| Quartus.CycloneFourGXGuessed | hdlmake/tools/quartus.py:115-131 | a device starting `EP4CGX` is `Cyclone IV GX` |
| Quartus.UnknownDeviceFails | hdlmake/tools/quartus.py:125-134 | a device no pattern matches, with no family given, fails |
| Quartus.SynTopValues | hdlmake/tools/quartus.py:112-144 | an unguessable family fails first; then a missing `syn_device`, `syn_package` and `syn_grade` fail in that order. Without a family, it succeeds exactly when a pattern matches the upper-cased device. On success the device string is device, package and grade concatenated, and the family is the given one or the last matching pattern's |
| Quartus.SynTopCycloneFourE | hdlmake/tools/quartus.py:112-144 | an `EP4CE` device with all keys and no family gives family `Cyclone IV E` and the concatenated device string |
| Quartus.UserLines | hdlmake/tools/quartus.py:197-202 | every user property is emitted as a global assignment, in order; the first non-dict or bad property fails the whole |
| Quartus.SearchPaths | hdlmake/tools/quartus.py:203-206 | each include directory gives one `SEARCH_PATH` assignment, in order |
| Quartus.SynTclCommands | hdlmake/tools/quartus.py:183-206 | the commands are the project control, the FAMILY, DEVICE and TOP_LEVEL_ENTITY assignments, then the user lines, then the search paths |
| Quartus.SynTcl | hdlmake/tools/quartus.py:207 | the script fails exactly when the commands do, with their error. It starts with the project control and a line break. When no later command holds a line break, splitting the rest at line breaks gives the later commands back |
| Xilinx.GetProperties | hdlmake/tools/xilinx.py:92-109 | the list starts with part, target language (VHDL by default) and top. The IP repository follows when a fetch directory is set, even an empty one. The user's properties come last, in order |
| Xilinx.ClassifyPair | hdlmake/tools/xilinx.py:128-139 | a name/value pair fails exactly when its name has no word or its first word is `steps`. Otherwise it is routed by the dotted prefix of that word |
| Xilinx.Classify | hdlmake/tools/xilinx.py:119-143 | shorter than two elements is skipped and longer than three is dropped. Three elements are set in the project on their own object. Two elements are routed by name |
| Xilinx.StepsRouting | hdlmake/tools/xilinx.py:128-130 | comparing the dot-separated components agrees with comparing dotted prefixes: `steps.synth_design…` is synthesis, other `steps.…` is implementation |
| Xilinx.RouteProperties | hdlmake/tools/xilinx.py:115-143 | the loop succeeds exactly when every property classifies; then each list holds exactly its routed commands in property order; otherwise the first failing property's error is returned |
| Xilinx.Section | hdlmake/tools/xilinx.py:115-143 | a list is its header followed by each command rendered, in order |
| Xilinx.SynTcl | hdlmake/tools/xilinx.py:110-155 | succeeds exactly when every property classifies. The project control and the `synth_1` and `impl_1` run controls then receive their routed lines, joined by line breaks. Otherwise the error is that of the first property that fails, every earlier one having classified |
| Xilinx.OneWordPlain | hdlmake/tools/xilinx.py:121-127 | a one-word name uses the plain `set_property` template |
| Xilinx.BuiltInsFirstInProject | hdlmake/tools/xilinx.py:98-141 | the three built-in properties are the first three project commands, in order, and reach no run |
| Xilinx.SynthOptionsLine | hdlmake/tools/xilinx.py:121-134 | `steps.synth_design… options` is set on `synth_1` with the `-name/-value/-objects` template |
| Xilinx.StepsGoToPar | hdlmake/tools/xilinx.py:128-137 | any other `steps.…` name is set on `impl_1` |
| ModuleCore.NewModule | hdlmake/module/core.py:107-116 | a new module is in library `work`, with no action and no forced tool |
| ModuleCore.ProcessForceTool | hdlmake/module/core.py:132-140 | a `None` or empty directive changes nothing. Otherwise it is kept exactly when it has two spaces, as three parts that join back to it, and cleared otherwise |
| ModuleCore.ForceToolThreeWords | hdlmake/module/core.py:134-140 | three space-free words joined by spaces are kept as those three words |
| ModuleCore.ProcessUniversal | hdlmake/module/core.py:143-149 | the library is copied and the action lower-cased, and nothing else changes |
| ModuleCore.ProcessManifest | hdlmake/module/core.py:125-130 | the forced tool is processed first, then the universal directives |
| ModuleCore.ActionLowerCase | hdlmake/module/core.py:149 | the action has no upper-case letter, and lower-casing it first changes nothing |
| ModuleCore.PathJoin | hdlmake/module/core.py:80 | an absolute part replaces the base; otherwise the base, at most one separator and the part |
| ModuleCore.CheckFilepath | hdlmake/module/core.py:72-92 | an empty path is accepted and an absolute one refused. Any other fails exactly when it does not exist under the module path. Refusal happens exactly for absolute paths |
| ModuleCore.MakeListOfPaths | hdlmake/module/core.py:95-101 | the loop succeeds exactly when no path is missing, and then returns the accepted paths made absolute, in order; otherwise the first missing path's error |
| ModuleCore.AcceptedPathsExactly | hdlmake/module/core.py:95-101 | the list holds an entry for every accepted path and nothing else |
| ModuleCore.AcceptedPathsAppend | hdlmake/module/core.py:97-100 | the list keeps manifest order: appending paths appends their entries |
| ModuleCore.DirectoryFiles | hdlmake/module/core.py:161-168 | a directory contributes exactly its entries that are not directories, each in the module's library |
| ModuleCore.CreateFileList | hdlmake/module/core.py:152-173 | every file is in the module's library and none is a directory. Each file is a listed non-directory or a direct entry of a listed directory, and every such path is there |

## Left out

- Reading the VHDL file and all logging. The scanner takes the file's text as an argument.
- Python regular-expression backtracking is not modelled. Each pattern is a hand-written matcher over lexemes. `\w`, `\s` and case-insensitive matching are ASCII.
- A pattern literal glued to the end of a longer word can match for the regex through backtracking: in `u: fooport map`, `\w+` gives back `port` and the regex takes the entity `foo`. The matchers read whole words instead, and read no instance there. In the same way, a pattern ending in a keyword that merely begins a longer word (`package p isx`, `… of e isx`, `port mapx`) matches for the regex, which leaves the rest of that word in the text, while the model's marker would cover the whole word and the matchers refuse it. The entity terminator search starts at the lexeme after the name, so `entity e is ende;` matches for the regex but not in the model. None of these occurs in valid VHDL.
- The markers the passes insert are treated as atomic tokens that no later pattern reads into.
- The set of libraries the library pass collects is local to the parser and then discarded. The model returns it from `Scan` and does not store it.
- `DepRelation` and `DepFile` are only the fields the scanner writes. The dependency solver and the Verilog scanner are not part of this model.
- Quartus property values other than strings and `None` are left out, since Python's `%s` formatting of arbitrary objects is not modelled. The `type` key of a property is never read and is left out too.
- The Quartus `_makefile_syn_files`, flow-script existence checks and the `super()` calls that write the Makefile are left out.
- The Xilinx `_makefile_syn_files` and IP-core path handling, and the Makefile writing of both back ends, are left out.
- A property list entry that is not a list of strings is left out: properties are sequences of strings.
- `init_config`, `set_pool` and the fetching of modules are left out.
- `os.path.exists`, `os.path.isdir` and `os.listdir` are read from a `FileSystem` value, and `sys.exit` is an `Err` result.
- `Strings.Upper` (used at hdlmake/tools/quartus.py:127) and `Strings.Lower` (used at hdlmake/module/core.py:149) map ASCII letters only; Python's `upper` and `lower` also map other Unicode letters. `Strings.SplitWs` splits at space, tab, line feed, vertical tab, form feed and carriage return, not at the further characters Python's `split` treats as whitespace (`\x1c`-`\x1f`, `\x85`, `\xa0` and other Unicode spaces).
- ModuleCore.ToAbsolute: `path_mod.rel2abs` is not part of this model. It is taken to join the path to the base, without the normalisation `os.path.abspath` would apply.
- The source files a module creates are kept as a sequence of additions; the de-duplication of `SourceFileSet` is not part of this model.

=== FILE: comments.dfy ===
/** Comment and string removal: the preprocessing step of the VHDL scanner,
    which deletes every match of `--.*?$|".?"` (multi-line, dot-all) in one
    left-to-right substitution, before any structural pass runs. */
module Comments {

  /** Index of the first line feed in `s`, or `|s|` when there is none: the
      place where a lazy `.*?$` stops. */
  function LineEnd(s: string): (k: nat)
    ensures k <= |s|
    ensures forall i :: 0 <= i < k ==> s[i] != '\n'
    ensures k < |s| ==> s[k] == '\n'
  {
    if |s| == 0 || s[0] == '\n' then 0 else 1 + LineEnd(s[1..])
  }

  /** One left-to-right pass of the substitution. At each position the line
      comment alternative is tried first, then the quoted-string alternative
      with its optional character taken greedily. */
  function Strip(s: string): (r: string)
    ensures |r| <= |s|
    decreases |s|
  {
    if |s| == 0 then ""
    else if |s| >= 2 && s[0] == '-' && s[1] == '-' then
      var k := LineEnd(s);
      assert k >= 2;
      Strip(s[k..])
    else if s[0] == '"' && |s| >= 3 && s[2] == '"' then Strip(s[3..])
    else if s[0] == '"' && |s| >= 2 && s[1] == '"' then Strip(s[2..])
    else [s[0]] + Strip(s[1..])
  }

  /** Text the substitution leaves alone character by character: no quote,
      and every hyphen is followed, inside the text, by something else. */
  predicate Plain(x: string) {
    forall i :: 0 <= i < |x| ==> PlainAt(x, i)
  }

  predicate PlainAt(x: string, i: nat)
    requires i < |x|
  {
    x[i] != '"' && (x[i] == '-' ==> i + 1 < |x| && x[i + 1] != '-')
  }

  /** Dropping the first character of plain text leaves plain text. */
  lemma PlainTail(x: string)
    requires Plain(x) && |x| > 0
    ensures Plain(x[1..])
  {
    forall i | 0 <= i < |x[1..]| ensures PlainAt(x[1..], i) {
      assert PlainAt(x, i + 1);
    }
  }

  /** A first character that starts neither a comment nor a string is kept,
      and the substitution goes on right after it. */
  lemma StripPlainHead(x: string, z: string)
    requires |x| > 0 && PlainAt(x, 0)
    ensures Strip(x + z) == [x[0]] + Strip(x[1..] + z)
  {
    var s := x + z;
    assert s[0] == x[0] && s[0] != '"';
    assert !(|s| >= 2 && s[0] == '-' && s[1] == '-') by {
      if x[0] == '-' { assert s[1] == x[1]; }
    }
    assert s[1..] == x[1..] + z;
  }

  /** Putting the first character back in front of the rest. */
  lemma ConsAppend(x: string, t: string)
    requires |x| > 0
    ensures [x[0]] + (x[1..] + t) == x + t
  {
    assert x == [x[0]] + x[1..];
  }

  /** Plain text in front of anything passes through unchanged. */
  lemma {:induction false} StripPlainPrefix(x: string, z: string)
    requires Plain(x)
    ensures Strip(x + z) == x + Strip(z)
  {
    if |x| > 0 {
      assert PlainAt(x, 0);
      StripPlainHead(x, z);
      PlainTail(x);
      StripPlainPrefix(x[1..], z);
      ConsAppend(x, Strip(z));
    } else {
      assert x + z == z;
    }
  }

  /** `LineEnd` is the first line feed and nothing else. */
  lemma {:induction false} LineEndIs(s: string, k: nat)
    requires k <= |s|
    requires forall i :: 0 <= i < k ==> s[i] != '\n'
    requires k == |s| || s[k] == '\n'
    ensures LineEnd(s) == k
  {
    if k > 0 {
      assert s[0] != '\n';
      LineEndIs(s[1..], k - 1);
    }
  }

  /** A line comment runs to the end of its line and leaves the line feed. */
  lemma CommentToLineEnd(c: string, y: string)
    requires '\n' !in c
    requires y == [] || y[0] == '\n'
    ensures Strip("--" + c + y) == Strip(y)
  {
    CommentLineEnd(c, y);
    assert ("--" + c + y)[2 + |c|..] == y;
  }

  /** A line comment runs, from its `--`, exactly to the end of its line. */
  lemma CommentLineEnd(c: string, y: string)
    requires '\n' !in c
    requires y == [] || y[0] == '\n'
    ensures LineEnd("--" + c + y) == 2 + |c|
  {
    var s := "--" + c + y;
    assert forall i :: 0 <= i < 2 + |c| ==> s[i] != '\n' by {
      forall i | 0 <= i < 2 + |c| ensures s[i] != '\n' {
        if i >= 2 { assert s[i] == c[i - 2]; }
      }
    }
    LineEndIs(s, 2 + |c|);
  }

  /** A line feed inside `x` ends the line whatever follows `x`. */
  lemma {:induction false} LineEndWithin(x: string, t: string)
    requires LineEnd(x) < |x|
    ensures LineEnd(x + t) == LineEnd(x)
  {
    if x[0] != '\n' {
      assert (x + t)[1..] == x[1..] + t;
      LineEndWithin(x[1..], t);
    }
  }

  /** Without a line feed in `x`, the line goes on into what follows. */
  lemma {:induction false} LineEndBeyond(x: string, t: string)
    requires LineEnd(x) == |x|
    ensures LineEnd(x + t) == |x| + LineEnd(t)
  {
    if |x| > 0 {
      assert (x + t)[1..] == x[1..] + t;
      LineEndBeyond(x[1..], t);
    } else {
      assert x + t == t;
    }
  }

  /** Text that ends in neither a quote nor a hyphen: what comes after it
      cannot join its last characters into a comment opener or a string
      literal. */
  predicate CleanEnd(x: string) {
    x == [] || (x[|x| - 1] != '"' && x[|x| - 1] != '-')
  }

  predicate CommentAhead(s: string) {
    |s| >= 2 && s[0] == '-' && s[1] == '-'
  }

  /** One step of the substitution at a position where no comment starts:
      the text it keeps and how far it advances. */
  function Step(s: string): (r: (string, nat))
    requires |s| > 0
    ensures 1 <= r.1 <= |s|
  {
    if s[0] == '"' && |s| >= 3 && s[2] == '"' then ("", 3)
    else if s[0] == '"' && |s| >= 2 && s[1] == '"' then ("", 2)
    else ([s[0]], 1)
  }

  lemma StripStep(s: string)
    requires |s| > 0 && !CommentAhead(s)
    ensures Strip(s) == Step(s).0 + Strip(s[Step(s).1..])
  {
    if s[0] == '"' && |s| >= 3 && s[2] == '"' {
      assert Step(s) == ("", 3);
      assert Strip(s) == Strip(s[3..]);
    } else if s[0] == '"' && |s| >= 2 && s[1] == '"' {
      assert Step(s) == ("", 2);
      assert Strip(s) == Strip(s[2..]);
    } else {
      assert Step(s) == ([s[0]], 1);
      assert Strip(s) == [s[0]] + Strip(s[1..]);
    }
  }

  lemma StripComment(s: string)
    requires CommentAhead(s)
    ensures Strip(s) == Strip(s[LineEnd(s)..])
  {
  }

  lemma CommentAheadExtends(x: string, t: string)
    requires CommentAhead(x)
    ensures CommentAhead(x + t)
  {
    assert (x + t)[0] == x[0] && (x + t)[1] == x[1];
  }

  lemma StripCommentTo(s: string, k: nat)
    requires CommentAhead(s) && LineEnd(s) == k
    ensures Strip(s) == Strip(s[k..])
  {
    StripComment(s);
  }

  /** `(x + t)[j..]` for a cut inside `x`. */
  lemma DropFront(x: string, t: string, j: nat)
    requires j <= |x|
    ensures (x + t)[j..] == x[j..] + t
  {
  }

  /** Inside a clean-ended `x` that does not open a comment, the step taken
      is the same whatever follows, as long as it does not start with a
      quote, and it stays within `x`. */
  lemma StepWithin(x: string, t: string)
    requires |x| > 0 && CleanEnd(x) && !CommentAhead(x)
    requires t == [] || t[0] != '"'
    ensures !CommentAhead(x + t) && Step(x + t) == Step(x)
  {
    var s := x + t;
    assert s[0] == x[0];
    if |x| >= 2 { assert s[1] == x[1]; }
    if |x| >= 3 { assert s[2] == x[2]; }
    if |x| == 2 && |s| >= 3 { assert s[2] == t[0]; }
  }

  /** A clean end keeps its shape when text is cut off its front. */
  lemma CleanEndSuffix(x: string, j: nat)
    requires j <= |x| && CleanEnd(x)
    ensures CleanEnd(x[j..])
  {
    if j < |x| { assert x[j..][|x[j..]| - 1] == x[|x| - 1]; }
  }

  /** A comment opened inside `x` and still open at its end runs on to the
      end of the line in whatever follows. */
  lemma OpenCommentRunsOn(x: string, t: string)
    requires CommentAhead(x) && LineEnd(x) == |x|
    ensures Strip(x + t) == Strip(t[LineEnd(t)..])
  {
    var e := LineEnd(t);
    LineEndBeyond(x, t);
    CommentAheadExtends(x, t);
    StripCommentTo(x + t, |x| + e);
    DropPast(x, t, e);
  }

  /** `(x + t)[j..]` for a cut inside `t`. */
  lemma DropPast(x: string, t: string, m: nat)
    requires m <= |t|
    ensures (x + t)[|x| + m..] == t[m..]
  {
  }

  /** Such a comment swallows the removed comment too, and both texts
      resume at `y`. */
  lemma CommentOpenAtEnd(x: string, c: string, y: string)
    requires CommentAhead(x) && LineEnd(x) == |x|
    requires '\n' !in c
    requires y == [] || y[0] == '\n'
    ensures Strip(x + ("--" + c + y)) == Strip(x + y)
  {
    var t := "--" + c + y;
    OpenCommentRunsOn(x, t);
    OpenCommentRunsOn(x, y);
    CommentLineEnd(c, y);
    assert t[2 + |c|..] == y;
    assert LineEnd(y) == 0;
  }

  /** Whatever follows `--` on a line is invisible: removing the comment
      changes nothing in the cleaned text, after any text that does not end
      in a quote or a hyphen. */
  lemma {:induction false} CommentInvisibleAfter(x: string, c: string, y: string)
    requires CleanEnd(x)
    requires '\n' !in c
    requires y == [] || y[0] == '\n'
    ensures Strip(x + ("--" + c + y)) == Strip(x + y)
    decreases |x|
  {
    var t := "--" + c + y;
    if |x| == 0 {
      assert x + t == t && x + y == y;
      CommentToLineEnd(c, y);
    } else if CommentAhead(x) {
      var k := LineEnd(x);
      if k < |x| {
        LineEndWithin(x, t);
        LineEndWithin(x, y);
        StripComment(x + t);
        StripComment(x + y);
        DropFront(x, t, k);
        DropFront(x, y, k);
        CleanEndSuffix(x, k);
        CommentInvisibleAfter(x[k..], c, y);
      } else {
        CommentOpenAtEnd(x, c, y);
      }
    } else {
      var j := Step(x).1;
      StepWithin(x, t);
      StepWithin(x, y);
      StripStep(x + t);
      StripStep(x + y);
      DropFront(x, t, j);
      DropFront(x, y, j);
      CleanEndSuffix(x, j);
      CommentInvisibleAfter(x[j..], c, y);
    }
  }

  lemma Regroup(x: string, a: string, b: string, y: string)
    ensures x + a + b + y == x + (a + b + y)
  {
  }

  lemma Regroup3(x: string, a: string, y: string)
    ensures x + a + y == x + (a + y)
  {
  }

  /** The same, with the comment written inline. */
  lemma CommentInvisible(x: string, c: string, y: string)
    requires CleanEnd(x)
    requires '\n' !in c
    requires y == [] || y[0] == '\n'
    ensures Strip(x + "--" + c + y) == Strip(x + y)
  {
    Regroup(x, "--", c, y);
    CommentInvisibleAfter(x, c, y);
  }

  /** A quoted string of exactly one character, whatever that character is,
      is removed. */
  lemma OneCharStringInvisible(x: string, ch: char, y: string)
    requires Plain(x)
    ensures Strip(x + ['"', ch, '"'] + y) == Strip(x + y)
  {
    Regroup3(x, ['"', ch, '"'], y);
    StripPlainPrefix(x, ['"', ch, '"'] + y);
    OneCharLiteralDropped(ch, y);
    StripPlainPrefix(x, y);
  }

  lemma OneCharLiteralDropped(ch: char, y: string)
    ensures Strip(['"', ch, '"'] + y) == Strip(y)
  {
    assert (['"', ch, '"'] + y)[3..] == y;
  }

  /** An empty quoted string is removed unless a third quote follows it, in
      which case the greedy optional character takes the second quote. */
  lemma EmptyStringInvisible(x: string, y: string)
    requires Plain(x)
    requires y == [] || y[0] != '"'
    ensures Strip(x + ['"', '"'] + y) == Strip(x + y)
  {
    Regroup3(x, ['"', '"'], y);
    StripPlainPrefix(x, ['"', '"'] + y);
    EmptyLiteralDropped(y);
    StripPlainPrefix(x, y);
  }

  lemma EmptyLiteralDropped(y: string)
    requires y == [] || y[0] != '"'
    ensures Strip(['"', '"'] + y) == Strip(y)
  {
    assert (['"', '"'] + y)[2..] == y;
  }

  /** A quoted string of two or more characters is NOT removed: its opening
      quote stays in the text. */
  lemma LongStringKept(a: char, b: char, y: string)
    requires a != '"' && b != '"'
    ensures Strip(['"', a, b] + y) == ['"'] + Strip([a, b] + y)
  {
    assert (['"', a, b] + y)[1..] == [a, b] + y;
  }
}

=== FILE: dep_file.dfy ===
/** The relation vocabulary the VHDL scanner writes into, and the per-file
    record that holds what a file provides and requires. Only the parts the
    scanner touches are modelled. */
module DepFiles {

  datatype Kind = Package | Entity | Architecture

  /** A symbol relation: the symbol's name, the library it belongs to and
      what kind of design unit it is. Whether it is provided or required is
      given by the list of the record it is stored in. */
  datatype Relation = Relation(name: string, library: string, kind: Kind)

  /** A dependency record of one source file. `provided` and `required`
      only ever grow while a scanner fills them. */
  datatype DepFile = DepFile(
    path: string,
    library: string,
    provided: seq<Relation>,
    required: seq<Relation>,
    isParsed: bool)

  /** A freshly discovered file: nothing found yet, not parsed. */
  function NewDepFile(path: string, library: string): (f: DepFile)
    ensures f.path == path && f.library == library
    ensures f.provided == [] && f.required == [] && !f.isParsed
  {
    DepFile(path, library, [], [], false)
  }
}

=== FILE: lexer.dfy ===
/** The simplified representation the structural passes of the VHDL scanner
    work on. The cleaned text is cut into words (maximal runs of `\w`) and
    single punctuation characters; whitespace only survives as two flags on
    each lexeme, which is all the scanner's patterns can observe of it:
    whether the lexeme is the first thing on its line (the `^\s*` anchor)
    and whether whitespace immediately precedes it. A span consumed by a
    pass becomes one `Marker` lexeme, standing for the inert
    `<hdlmake …>` text the scanner substitutes. */
module Lexer {
  import opened Strings

  datatype Token = Word(text: string) | Punct(ch: char) | Marker(tag: string)

  datatype Lexeme = Lexeme(tok: Token, bol: bool, spaced: bool)

  /** The characters a lexeme came from. */
  function TokenText(t: Token): string {
    match t
    case Word(w) => w
    case Punct(c) => [c]
    case Marker(_) => ""
  }

  function Flatten(ls: seq<Lexeme>): string {
    if |ls| == 0 then "" else TokenText(ls[0].tok) + Flatten(ls[1..])
  }

  /** The text with every whitespace character deleted. */
  function NonSpace(s: string): string {
    if |s| == 0 then ""
    else if IsSpace(s[0]) then NonSpace(s[1..])
    else [s[0]] + NonSpace(s[1..])
  }

  /** Length of the longest prefix of `s` made of word characters. */
  function WordRun(s: string): (k: nat)
    ensures k <= |s|
    ensures forall i :: 0 <= i < k ==> IsWordChar(s[i])
    ensures k < |s| ==> !IsWordChar(s[k])
  {
    if |s| == 0 || !IsWordChar(s[0]) then 0 else 1 + WordRun(s[1..])
  }

  /** A lexeme the lexer can produce: a non-empty word of word characters, or
      one character that is neither a word character nor whitespace. */
  predicate WellFormed(l: Lexeme) {
    match l.tok
    case Word(w) => |w| > 0 && forall i :: 0 <= i < |w| ==> IsWordChar(w[i])
    case Punct(c) => !IsWordChar(c) && !IsSpace(c)
    case Marker(_) => false
  }

  /** Lexes `s`; `bol` says nothing but whitespace has been seen since the
      last line feed, `spaced` that the previous character was whitespace. */
  function LexFrom(s: string, bol: bool, spaced: bool): (r: seq<Lexeme>)
    ensures forall k :: 0 <= k < |r| ==> WellFormed(r[k])
    decreases |s|
  {
    if |s| == 0 then []
    else if s[0] == '\n' then LexFrom(s[1..], true, true)
    else if IsSpace(s[0]) then LexFrom(s[1..], bol, true)
    else if IsWordChar(s[0]) then
      var k := WordRun(s);
      [Lexeme(Word(s[..k]), bol, spaced)] + LexFrom(s[k..], false, false)
    else [Lexeme(Punct(s[0]), bol, spaced)] + LexFrom(s[1..], false, false)
  }

  function Lex(s: string): seq<Lexeme> {
    LexFrom(s, true, true)
  }

  lemma {:induction false} NonSpaceSplit(a: string, b: string)
    requires forall i :: 0 <= i < |a| ==> !IsSpace(a[i])
    ensures NonSpace(a + b) == a + NonSpace(b)
  {
    if |a| > 0 {
      assert (a + b)[1..] == a[1..] + b;
      NonSpaceSplit(a[1..], b);
      assert a == [a[0]] + a[1..];
    } else {
      assert a + b == b;
    }
  }

  /** Lexing loses nothing but whitespace: the lexemes, read back in order,
      spell the text with its whitespace deleted. */
  lemma {:induction false} LexSpellsText(s: string, bol: bool, spaced: bool)
    ensures Flatten(LexFrom(s, bol, spaced)) == NonSpace(s)
    decreases |s|
  {
    if |s| == 0 {
    } else if s[0] == '\n' {
      LexSpellsText(s[1..], true, true);
    } else if IsSpace(s[0]) {
      LexSpellsText(s[1..], bol, true);
    } else if IsWordChar(s[0]) {
      var k := WordRun(s);
      var rest := LexFrom(s[k..], false, false);
      var r := [Lexeme(Word(s[..k]), bol, spaced)] + rest;
      assert LexFrom(s, bol, spaced) == r;
      assert r[1..] == rest;
      LexSpellsText(s[k..], false, false);
      forall i | 0 <= i < k ensures !IsSpace(s[..k][i]) {
        assert IsWordChar(s[i]);
      }
      NonSpaceSplit(s[..k], s[k..]);
      assert s == s[..k] + s[k..];
    } else {
      var rest := LexFrom(s[1..], false, false);
      var r := [Lexeme(Punct(s[0]), bol, spaced)] + rest;
      assert r[1..] == rest;
      LexSpellsText(s[1..], false, false);
    }
  }
}

=== FILE: module_core.dfy ===
/** The core of a module: the universal manifest directives it reads, the
    check and resolution of the paths its manifest names, and the library
    every source file it creates is put in. The file system is an oracle
    given as a value. */
module ModuleCore {
  import opened Strings
  import opened Outcomes

  // ---------------------------------------------------------------------
  // The module and its manifest directives

  datatype Module = Module(
    path: string,
    library: string,
    action: Option<string>,
    forceTool: Option<seq<string>>)

  const DefaultLibrary := "work"

  /** A freshly constructed module: library `work`, no action and no
      forced tool. */
  function NewModule(path: string): (r: Module)
    ensures r.path == path && r.library == DefaultLibrary
    ensures r.action.None? && r.forceTool.None?
  {
    Module(path, DefaultLibrary, None, None)
  }

  /** `_process_manifest_force_tool`: a `None` or empty directive leaves
      the module alone; any other is split at single spaces and kept only
      when that gives exactly three parts (tool, version, and how the
      version is compared), otherwise the forced tool is cleared. */
  function ProcessForceTool(m: Module, directive: Option<string>): (r: Module)
    ensures directive.None? || directive == Some("") ==> r == m
    ensures r.path == m.path && r.library == m.library && r.action == m.action
    ensures directive.Some? && directive.value != "" ==>
              (r.forceTool.Some? <==> CountChar(directive.value, ' ') == 2)
    ensures directive.Some? && directive.value != "" && r.forceTool.Some? ==>
              |r.forceTool.value| == 3 && Join(r.forceTool.value, " ") == directive.value
  {
    if directive.None? || directive.value == "" then m
    else
      var parts := Split(directive.value, ' ');
      JoinSplit(directive.value, ' ');
      m.(forceTool := if |parts| == 3 then Some(parts) else None)
  }

  /** Three space-free words joined by single spaces are kept as they
      were. */
  lemma ForceToolThreeWords(m: Module, tool: string, version: string, compare: string)
    requires ' ' !in tool && ' ' !in version && ' ' !in compare
    ensures ProcessForceTool(m, Some(tool + " " + version + " " + compare)).forceTool
            == Some([tool, version, compare])
  {
    var directive := tool + " " + version + " " + compare;
    assert Join([tool, version, compare], " ") == directive by {
      assert Join([compare], " ") == compare;
      assert Join([version, compare], " ") == version + " " + compare;
      assert Join([tool, version, compare], " ") == tool + " " + (version + " " + compare);
    }
    SplitJoin([tool, version, compare], ' ');
  }

  /** `_process_manifest_universal`: the library is copied from the
      manifest and the action lower-cased. */
  function ProcessUniversal(m: Module, library: string, action: string): (r: Module)
    ensures r.path == m.path && r.forceTool == m.forceTool
    ensures r.library == library
    ensures r.action.Some? && |r.action.value| == |action|
    ensures forall i :: 0 <= i < |action| ==> r.action.value[i] == LowerChar(action[i])
  {
    m.(library := library, action := Some(Lower(action)))
  }

  /** `process_manifest`, the part of it this module owns: the forced
      tool first, then the universal directives. */
  function ProcessManifest(m: Module, forceTool: Option<string>, library: string, action: string): (r: Module)
    ensures r.path == m.path && r.library == library && r.action == Some(Lower(action))
    ensures r.forceTool == ProcessForceTool(m, forceTool).forceTool
  {
    ProcessUniversal(ProcessForceTool(m, forceTool), library, action)
  }

  /** The action is lower case however it was written. */
  lemma ActionLowerCase(m: Module, forceTool: Option<string>, library: string, action: string)
    ensures var a := ProcessManifest(m, forceTool, library, action).action.value;
            forall i :: 0 <= i < |a| ==> !('A' <= a[i] <= 'Z')
    ensures ProcessManifest(m, forceTool, library, Lower(action)) == ProcessManifest(m, forceTool, library, action)
  {
    LowerIdempotent(action);
  }

  // ---------------------------------------------------------------------
  // Paths

  /** The file system the paths are checked against: the paths that
      exist, those that are directories, and each directory's entries. */
  datatype FileSystem = FileSystem(existing: set<string>, dirs: set<string>, entries: map<string, seq<string>>)

  /** A directory exists and can be listed. */
  predicate Consistent(fs: FileSystem) {
    fs.dirs <= fs.existing && forall d :: d in fs.dirs ==> d in fs.entries
  }

  /** A POSIX absolute path. */
  predicate IsAbsolute(p: string) {
    |p| > 0 && p[0] == '/'
  }

  /** `os.path.join` of two parts: an absolute second part replaces the
      first; otherwise a separator is put between them unless the first is
      empty or already ends in one. */
  function PathJoin(base: string, p: string): (r: string)
    ensures IsAbsolute(p) ==> r == p
    ensures !IsAbsolute(p) ==> exists sep :: sep in {"", "/"} && r == base + sep + p
  {
    if IsAbsolute(p) then p
    else if base == "" || base[|base| - 1] == '/' then
      assert base + p == base + "" + p;
      base + p
    else base + "/" + p
  }

  /** A path made absolute against a base: an absolute path stays, a
      relative one is joined to the base. */
  function ToAbsolute(p: string, base: string): (r: string)
    ensures IsAbsolute(p) ==> r == p
    ensures IsAbsolute(base) ==> IsAbsolute(r)
  {
    PathJoin(base, p)
  }

  /** The manifest names a path that does not exist: the run stops. */
  datatype CoreError = PathMissing(modulePath: string, path: string)

  /** `_check_filepath`: an empty path is accepted; an absolute path is
      refused; any other must exist under the module's directory, or the
      run stops. A directory is accepted (and only reported). */
  function CheckFilepath(fs: FileSystem, m: Module, p: string): (r: Result<bool, CoreError>)
    ensures p == "" ==> r == Ok(true)
    ensures IsAbsolute(p) ==> r == Ok(false)
    ensures r.Err? <==> p != "" && !IsAbsolute(p) && PathJoin(m.path, p) !in fs.existing
    ensures r.Err? ==> r.error == PathMissing(m.path, PathJoin(m.path, p))
    ensures r == Ok(false) <==> IsAbsolute(p)
  {
    if p == "" then Ok(true)
    else if IsAbsolute(p) then Ok(false)
    else if PathJoin(m.path, p) !in fs.existing then Err(PathMissing(m.path, PathJoin(m.path, p)))
    else Ok(true)
  }

  /** A path the check accepts. */
  predicate Accepted(fs: FileSystem, m: Module, p: string) {
    CheckFilepath(fs, m, p) == Ok(true)
  }

  /** No path of `paths` stops the run. */
  predicate NoneMissing(fs: FileSystem, m: Module, paths: seq<string>) {
    forall k :: 0 <= k < |paths| ==> CheckFilepath(fs, m, paths[k]).Ok?
  }

  /** The accepted paths of `paths`, in order, made absolute. */
  function AcceptedPaths(fs: FileSystem, m: Module, paths: seq<string>): seq<string> {
    if |paths| == 0 then []
    else
      var last := paths[|paths| - 1];
      AcceptedPaths(fs, m, paths[..|paths| - 1])
        + (if Accepted(fs, m, last) then [ToAbsolute(last, m.path)] else [])
  }

  /** `_make_list_of_paths`: each path is checked in order; the accepted
      ones are kept, made absolute; the first missing one stops the run. */
  method MakeListOfPaths(fs: FileSystem, m: Module, paths: seq<string>) returns (r: Result<seq<string>, CoreError>)
    ensures r.Ok? <==> NoneMissing(fs, m, paths)
    ensures r.Ok? ==> r.value == AcceptedPaths(fs, m, paths)
    ensures r.Err? ==> exists k :: 0 <= k < |paths| && CheckFilepath(fs, m, paths[k]) == Err(r.error)
                          && NoneMissing(fs, m, paths[..k])
  {
    var kept := [];
    var i := 0;
    while i < |paths|
      invariant 0 <= i <= |paths|
      invariant NoneMissing(fs, m, paths[..i])
      invariant kept == AcceptedPaths(fs, m, paths[..i])
    {
      var check := CheckFilepath(fs, m, paths[i]);
      if check.Err? {
        return Err(check.error);
      }
      assert paths[..i + 1][..i] == paths[..i];
      if check.value {
        kept := kept + [ToAbsolute(paths[i], m.path)];
      }
      i := i + 1;
    }
    assert paths[..i] == paths;
    r := Ok(kept);
  }

  /** The list holds exactly the accepted paths, made absolute: every
      entry comes from an accepted path, and every accepted path is
      there. */
  lemma {:induction false} AcceptedPathsExactly(fs: FileSystem, m: Module, paths: seq<string>)
    ensures forall q :: q in AcceptedPaths(fs, m, paths) ==>
              exists k :: 0 <= k < |paths| && Accepted(fs, m, paths[k]) && q == ToAbsolute(paths[k], m.path)
    ensures forall k :: 0 <= k < |paths| && Accepted(fs, m, paths[k]) ==>
              ToAbsolute(paths[k], m.path) in AcceptedPaths(fs, m, paths)
    ensures |AcceptedPaths(fs, m, paths)| <= |paths|
  {
    if |paths| > 0 {
      var init := paths[..|paths| - 1];
      AcceptedPathsExactly(fs, m, init);
      forall q | q in AcceptedPaths(fs, m, paths)
        ensures exists k :: 0 <= k < |paths| && Accepted(fs, m, paths[k]) && q == ToAbsolute(paths[k], m.path)
      {
        if q in AcceptedPaths(fs, m, init) {
          var k :| 0 <= k < |init| && Accepted(fs, m, init[k]) && q == ToAbsolute(init[k], m.path);
          assert paths[k] == init[k];
        } else {
          assert q == ToAbsolute(paths[|paths| - 1], m.path);
        }
      }
      forall k | 0 <= k < |paths| && Accepted(fs, m, paths[k])
        ensures ToAbsolute(paths[k], m.path) in AcceptedPaths(fs, m, paths)
      {
        if k < |init| {
          assert paths[k] == init[k];
        }
      }
    }
  }

  /** The list keeps the order of the manifest: appending paths appends
      their accepted ones. */
  lemma {:induction false} AcceptedPathsAppend(fs: FileSystem, m: Module, a: seq<string>, b: seq<string>)
    ensures AcceptedPaths(fs, m, a + b) == AcceptedPaths(fs, m, a) + AcceptedPaths(fs, m, b)
    decreases |b|
  {
    if |b| == 0 {
      assert a + b == a;
    } else {
      var b' := b[..|b| - 1];
      assert (a + b)[..|a + b| - 1] == a + b';
      AcceptedPathsAppend(fs, m, a, b');
    }
  }

  // ---------------------------------------------------------------------
  // Source files

  /** A source file as far as this model follows it: its path and the
      library it is compiled into. */
  datatype SourceFile = SourceFile(path: string, library: string)

  /** The files a directory contributes: each entry that is not itself a
      directory, one level only. */
  function DirectoryFiles(fs: FileSystem, m: Module, dir: string, entries: seq<string>): (r: seq<SourceFile>)
    ensures forall f :: f in r ==> f.library == m.library && f.path !in fs.dirs
    ensures forall f :: f in r ==> exists e :: e in entries && f.path == PathJoin(PathJoin(m.path, dir), e)
    ensures forall e :: e in entries && PathJoin(PathJoin(m.path, dir), e) !in fs.dirs ==>
              SourceFile(PathJoin(PathJoin(m.path, dir), e), m.library) in r
  {
    if |entries| == 0 then []
    else
      var full := PathJoin(PathJoin(m.path, dir), entries[0]);
      var rest := DirectoryFiles(fs, m, dir, entries[1..]);
      assert forall e :: e in entries[1..] ==> e in entries;
      assert forall e :: e in entries ==> e == entries[0] || e in entries[1..];
      if full in fs.dirs then rest else [SourceFile(full, m.library)] + rest
  }

  /** `_create_file_list_from_paths`: a directory contributes its
      non-directory entries, anything else contributes itself; every file
      is put in the module's library. */
  function CreateFileList(fs: FileSystem, m: Module, paths: seq<string>): (r: seq<SourceFile>)
    requires Consistent(fs)
    ensures forall f :: f in r ==> f.library == m.library
    ensures forall f :: f in r ==> f.path !in fs.dirs
    ensures forall f :: f in r ==>
              (f.path in paths && f.path !in fs.dirs)
              || exists d, e :: d in paths && d in fs.dirs && e in fs.entries[d]
                                && f.path == PathJoin(PathJoin(m.path, d), e)
    ensures forall p :: p in paths && p !in fs.dirs ==> SourceFile(p, m.library) in r
    ensures forall d, e :: d in paths && d in fs.dirs && e in fs.entries[d]
                           && PathJoin(PathJoin(m.path, d), e) !in fs.dirs ==>
              SourceFile(PathJoin(PathJoin(m.path, d), e), m.library) in r
  {
    if |paths| == 0 then []
    else
      var p := paths[0];
      var here := if p in fs.dirs then DirectoryFiles(fs, m, p, fs.entries[p]) else [SourceFile(p, m.library)];
      var rest := CreateFileList(fs, m, paths[1..]);
      assert forall q :: q in paths[1..] ==> q in paths;
      assert forall q :: q in paths ==> q == p || q in paths[1..];
      here + rest
  }
}

=== FILE: outcomes.dfy ===
/** Success/failure values used wherever hdlmake raises an
    exception, exits the process or hits a missing dictionary key. */
module Outcomes {

  datatype Result<+T, +E> = Ok(value: T) | Err(error: E) {

    predicate IsFailure() {
      Err?
    }

    function PropagateFailure<U>(): Result<U, E>
      requires Err?
    {
      Err(error)
    }

    function Extract(): T
      requires Ok?
    {
      value
    }
  }

  datatype Option<+T> = None | Some(value: T)
}

=== FILE: passes.dfy ===
/** The structural passes of the VHDL scanner. Each pass is one regular
    expression applied with a substitution over the whole buffer; here each
    pattern is a hand-written matcher over lexemes, and a pass walks the
    buffer left to right the way a substitution does: a match may only start
    on the first lexeme of a line, the matched span is replaced by one
    marker, and the walk resumes after the span.

    How the patterns' pieces are read on lexemes (all case-insensitive):
    - a keyword followed by `\s+` must be a whole word (`use`, `entity`);
    - a keyword that ends the pattern or is followed by `.*?` only has to
      begin a word (`is` in `package p is`, `map` in `port map`);
    - a literal found by a lazy `.*?` search only has to end a word (`end`
      in `end component`), and the search takes the first place that works;
    - `\w+` groups are whole words. */
module Passes {
  import opened Strings
  import opened Outcomes
  import opened DepFiles
  import opened Lexer

  type Lexemes = seq<Lexeme>

  datatype PassKind =
    | UsePass | EntityPass | ArchitecturePass | PackagePass | ComponentPass
    | SignalPass | ConstantPass | RecordPass | FunctionPass | InstancePass
    | LibraryPass

  /** The order in which the scanner runs its passes. */
  const PassOrder: seq<PassKind> := [
    UsePass, EntityPass, ArchitecturePass, PackagePass, ComponentPass,
    SignalPass, ConstantPass, RecordPass, FunctionPass, InstancePass,
    LibraryPass]

  /** The word each pass writes into its `<hdlmake …>` marker. */
  function MarkerTag(k: PassKind): string {
    match k
    case UsePass => "use_pattern"
    case EntityPass => "entity_pattern"
    case ArchitecturePass => "architecture"
    case PackagePass => "package"
    case ComponentPass => "component"
    case SignalPass => "signal"
    case ConstantPass => "constant"
    case RecordPass => "record"
    case FunctionPass => "function"
    case InstancePass => "instance"
    case LibraryPass => "library"
  }

  /** One match: where the consumed span ends, and what the pass's
      callback adds to the file (relations) or to the visible libraries. */
  datatype Match = Match(
    end: nat,
    provided: seq<Relation>,
    required: seq<Relation>,
    libraries: set<string>)

  // ---------------------------------------------------------------------
  // Lexeme tests

  predicate IsWordAt(ts: Lexemes, i: int) {
    0 <= i < |ts| && ts[i].tok.Word?
  }

  function WordAt(ts: Lexemes, i: int): string
    requires IsWordAt(ts, i)
  {
    ts[i].tok.text
  }

  predicate KeywordAt(ts: Lexemes, i: int, kw: string) {
    IsWordAt(ts, i) && EqCI(WordAt(ts, i), kw)
  }

  predicate PrefixAt(ts: Lexemes, i: int, kw: string) {
    IsWordAt(ts, i) && HasPrefixCI(WordAt(ts, i), kw)
  }

  predicate SuffixAt(ts: Lexemes, i: int, kw: string) {
    IsWordAt(ts, i) && HasSuffixCI(WordAt(ts, i), kw)
  }

  predicate PunctAt(ts: Lexemes, i: int, c: char) {
    0 <= i < |ts| && ts[i].tok == Punct(c)
  }

  // ---------------------------------------------------------------------
  // Lazy searches

  /** What a lazy `.*?` looks for: a `;`, an `end <unit>` pair, or the
      `<name>;` / `entity;` that closes an entity header. */
  datatype Probe = Semicolon | EndOf(unit: string) | Terminator(name: string)

  predicate ProbeAt(ts: Lexemes, j: int, p: Probe) {
    match p
    case Semicolon => PunctAt(ts, j, ';')
    case EndOf(u) => SuffixAt(ts, j, "end") && PrefixAt(ts, j + 1, u)
    case Terminator(n) =>
      (SuffixAt(ts, j, Lower(n)) || SuffixAt(ts, j, "entity")) && PunctAt(ts, j + 1, ';')
  }

  /** The first place at or after `j` where the probe succeeds. */
  function Find(ts: Lexemes, j: nat, p: Probe): (r: Option<nat>)
    ensures r.Some? ==> j <= r.value < |ts| && ProbeAt(ts, r.value, p)
    ensures r.Some? ==> forall m :: j <= m < r.value ==> !ProbeAt(ts, m, p)
    ensures r.None? ==> forall m :: j <= m < |ts| ==> !ProbeAt(ts, m, p)
    decreases |ts| - j
  {
    if j >= |ts| then None
    else if ProbeAt(ts, j, p) then Some(j)
    else Find(ts, j + 1, p)
  }

  /** End of `... <unit> ... ;` once the `end` of an `end <unit>` pair has
      been found at `j`: the first `;` after the pair, consumed. */
  function SemicolonAfter(ts: Lexemes, from: nat): (r: Option<nat>)
    ensures r.Some? ==> from < r.value <= |ts| && PunctAt(ts, r.value - 1, ';')
  {
    match Find(ts, from, Semicolon)
    case Some(k) => Some(k + 1)
    case None => None
  }

  /** `.*?end\s+<unit>.*?;` searched from `from`. */
  function EndBlock(ts: Lexemes, from: nat, unit: string): (r: Option<nat>)
    ensures r.Some? ==> from < r.value <= |ts|
  {
    match Find(ts, from, EndOf(unit))
    case Some(j) => SemicolonAfter(ts, j + 2)
    case None => None
  }

  // ---------------------------------------------------------------------
  // Relations built by the callbacks

  /** `use L.P`: both names lower-cased, library `work` meaning the file's
      own library. */
  function UseRelation(libWord: string, pkgWord: string, fileLib: string): Relation {
    var l := Lower(libWord);
    Relation(Lower(pkgWord), if l == "work" then fileLib else l, Package)
  }

  /** An instantiation: no library, or exactly `work`, means the file's
      own library; any other prefix is kept as written. */
  function InstanceRelation(libWord: Option<string>, ent: string, fileLib: string): Relation {
    var l := if libWord.None? || libWord.value == "work" then fileLib else libWord.value;
    Relation(ent, l, Entity)
  }

  // ---------------------------------------------------------------------
  // Matchers, one per pattern; `i` is the first lexeme of a line

  /** `^\s*use\s+(\w+)\s*\.\s*(\w+)` */
  function MatchUse(ts: Lexemes, i: nat, lib: string): Option<Match> {
    if KeywordAt(ts, i, "use") && IsWordAt(ts, i + 1) && PunctAt(ts, i + 2, '.')
       && IsWordAt(ts, i + 3)
    then Some(Match(i + 4, [], [UseRelation(WordAt(ts, i + 1), WordAt(ts, i + 3), lib)], {}))
    else None
  }

  /** `^\s*entity\s+(?P<name>\w+)\s+is\s+(?:port|generic|end).*?((?P=name)|entity)\s*;` */
  function MatchEntity(ts: Lexemes, i: nat, lib: string): (r: Option<Match>)
    ensures r.Some? ==> i < r.value.end <= |ts|
  {
    if KeywordAt(ts, i, "entity") && IsWordAt(ts, i + 1) && KeywordAt(ts, i + 2, "is")
       && (PrefixAt(ts, i + 3, "port") || PrefixAt(ts, i + 3, "generic")
           || PrefixAt(ts, i + 3, "end"))
    then
      var name := WordAt(ts, i + 1);
      match Find(ts, i + 4, Terminator(name))
      case Some(j) => Some(Match(j + 2, [Relation(name, lib, Entity)], [], {}))
      case None => None
    else None
  }

  /** `^\s*architecture\s+(?P<name>\w+)\s+of\s+(\w+)\s+is` */
  function MatchArchitecture(ts: Lexemes, i: nat, lib: string): (r: Option<Match>)
    ensures r.Some? ==> PassContributes(ArchitecturePass, lib, r.value.provided, r.value.required, r.value.libraries)
    ensures r.Some? ==> IsWordAt(ts, i + 3) && KeywordAt(ts, i + 2, "of")
                        && r.value.provided == [Relation(WordAt(ts, i + 3), lib, Architecture)]
                        && r.value.required == [Relation(WordAt(ts, i + 3), lib, Entity)]
  {
    if KeywordAt(ts, i, "architecture") && IsWordAt(ts, i + 1) && KeywordAt(ts, i + 2, "of")
       && IsWordAt(ts, i + 3) && PrefixAt(ts, i + 4, "is")
    then
      var ent := WordAt(ts, i + 3);
      Some(Match(i + 5, [Relation(ent, lib, Architecture)], [Relation(ent, lib, Entity)], {}))
    else None
  }

  /** `^\s*package\s+(\w+)\s+is` */
  function MatchPackage(ts: Lexemes, i: nat, lib: string): (r: Option<Match>)
    ensures r.Some? ==> PassContributes(PackagePass, lib, r.value.provided, r.value.required, r.value.libraries)
    ensures r.Some? ==> IsWordAt(ts, i + 1) && r.value.provided == [Relation(WordAt(ts, i + 1), lib, Package)]
  {
    if KeywordAt(ts, i, "package") && IsWordAt(ts, i + 1) && PrefixAt(ts, i + 2, "is")
    then Some(Match(i + 3, [Relation(WordAt(ts, i + 1), lib, Package)], [], {}))
    else None
  }

  /** `^\s*component\s+(\w+).*?end\s+component.*?;` */
  function MatchComponent(ts: Lexemes, i: nat): (r: Option<Match>)
    ensures r.Some? ==> i < r.value.end <= |ts|
    ensures r.Some? ==> r.value.provided == [] && r.value.required == [] && r.value.libraries == {}
  {
    if KeywordAt(ts, i, "component") && IsWordAt(ts, i + 1) then
      match EndBlock(ts, i + 2, "component")
      case Some(e) => Some(Match(e, [], [], {}))
      case None => None
    else None
  }

  /** `^\s*signal\s+(\w+).*?;` and `^\s*constant\s+(\w+).*?;` */
  function MatchDeclaration(ts: Lexemes, i: nat, kw: string): (r: Option<Match>)
    ensures r.Some? ==> i < r.value.end <= |ts|
    ensures r.Some? ==> r.value.provided == [] && r.value.required == [] && r.value.libraries == {}
  {
    if KeywordAt(ts, i, kw) && IsWordAt(ts, i + 1) then
      match SemicolonAfter(ts, i + 2)
      case Some(e) => Some(Match(e, [], [], {}))
      case None => None
    else None
  }

  /** `^\s*type\s+(\w+)\s+is\s+record.*?end\s+record.*?;` */
  function MatchRecord(ts: Lexemes, i: nat): (r: Option<Match>)
    ensures r.Some? ==> i < r.value.end <= |ts|
    ensures r.Some? ==> r.value.provided == [] && r.value.required == [] && r.value.libraries == {}
  {
    if KeywordAt(ts, i, "type") && IsWordAt(ts, i + 1) && KeywordAt(ts, i + 2, "is")
       && PrefixAt(ts, i + 3, "record")
    then
      match EndBlock(ts, i + 4, "record")
      case Some(e) => Some(Match(e, [], [], {}))
      case None => None
    else None
  }

  /** What follows `return <type>` in a function declaration: the optional
      body `\s+is.*?end\s+function.*?` (tried first, being greedy), then
      `\s*;`. */
  function FunctionTail(ts: Lexemes, p: nat): (r: Option<nat>)
    ensures r.Some? ==> p < r.value <= |ts|
  {
    var body := if PrefixAt(ts, p, "is") then EndBlock(ts, p + 1, "function") else None;
    if body.Some? then body
    else if PunctAt(ts, p, ';') then Some(p + 1)
    else None
  }

  /** The lazy `.*?return\s+\w+` followed by `FunctionTail`: the first
      `return` from which the rest of the pattern succeeds. */
  function FindReturn(ts: Lexemes, j: nat): (r: Option<nat>)
    ensures r.Some? ==> j < r.value <= |ts|
    decreases |ts| - j
  {
    if j >= |ts| then None
    else if SuffixAt(ts, j, "return") && IsWordAt(ts, j + 1) && FunctionTail(ts, j + 2).Some?
    then FunctionTail(ts, j + 2)
    else FindReturn(ts, j + 1)
  }

  /** `^\s*function\s+(?P<name>\w+).*?return\s+\w+(\s+is.*?end\s+function.*?)?\s*;` */
  function MatchFunction(ts: Lexemes, i: nat): (r: Option<Match>)
    ensures r.Some? ==> i < r.value.end <= |ts|
    ensures r.Some? ==> r.value.provided == [] && r.value.required == [] && r.value.libraries == {}
  {
    if KeywordAt(ts, i, "function") && IsWordAt(ts, i + 1) then
      match FindReturn(ts, i + 2)
      case Some(e) => Some(Match(e, [], [], {}))
      case None => None
    else None
  }

  /** `(?:port\s+map.*?|generic\s+map.*?)` at `q`. */
  function MapAt(ts: Lexemes, q: nat): (r: Option<nat>)
    ensures r.Some? ==> r.value == q + 2 <= |ts|
  {
    if (KeywordAt(ts, q, "port") || KeywordAt(ts, q, "generic")) && PrefixAt(ts, q + 1, "map")
    then Some(q + 2)
    else None
  }

  /** `(?P<ENTITY>\w+)\s*(?:\(\s*(?P<ARCH>\w+)\s*\)\s*)?` then the map, the
      optional architecture tried first. */
  function InstanceTail(ts: Lexemes, p: nat): (r: Option<nat>)
    ensures r.Some? ==> IsWordAt(ts, p) && p < r.value <= |ts|
  {
    if !IsWordAt(ts, p) then None
    else
      var withArch :=
        if PunctAt(ts, p + 1, '(') && IsWordAt(ts, p + 2) && PunctAt(ts, p + 3, ')')
        then MapAt(ts, p + 4) else None;
      if withArch.Some? then withArch else MapAt(ts, p + 1)
  }

  /** The instantiation after the label `ts[i] :` reads `entity L.e`, no
      whitespace around the dot, and the rest of the pattern follows `e`:
      the optional group of the pattern is taken. */
  predicate LibraryForm(ts: Lexemes, i: nat) {
    KeywordAt(ts, i + 2, "entity") && IsWordAt(ts, i + 3) && PunctAt(ts, i + 4, '.')
    && !ts[i + 4].spaced && IsWordAt(ts, i + 5) && !ts[i + 5].spaced
    && InstanceTail(ts, i + 5).Some?
  }

  /** `^\s*(?P<LABEL>\w+)\s*:\s*(?:entity\s+(?P<LIB>\w+)\.)?(?P<ENTITY>\w+)…`;
      the optional `entity LIB.` is tried first. No whitespace may stand
      around the dot. */
  function MatchInstance(ts: Lexemes, i: nat, lib: string): (r: Option<Match>)
    ensures r.Some? ==> i < r.value.end <= |ts|
  {
    if !(IsWordAt(ts, i) && PunctAt(ts, i + 1, ':')) then None
    else
      if LibraryForm(ts, i) then
        Some(Match(InstanceTail(ts, i + 5).value, [],
                   [InstanceRelation(Some(WordAt(ts, i + 3)), WordAt(ts, i + 5), lib)], {}))
      else
        match InstanceTail(ts, i + 2)
        case Some(e) => Some(Match(e, [], [InstanceRelation(None, WordAt(ts, i + 2), lib)], {}))
        case None => None
  }

  /** `^\s*library\s*(\w+)\s*;`: since `\s*` may be empty, the library name
      may also be glued to the keyword (`libraryieee;`). */
  function MatchLibrary(ts: Lexemes, i: nat): (r: Option<Match>)
    ensures r.Some? ==> i < r.value.end <= |ts|
    ensures r.Some? ==> r.value.provided == [] && r.value.required == []
  {
    if !PrefixAt(ts, i, "library") then None
    else
      var w := WordAt(ts, i);
      if |w| > 7 then
        if PunctAt(ts, i + 1, ';') then Some(Match(i + 2, [], [], {w[7..]})) else None
      else if IsWordAt(ts, i + 1) && PunctAt(ts, i + 2, ';') then
        Some(Match(i + 3, [], [], {WordAt(ts, i + 1)}))
      else None
  }

  /** The match of pass `k` starting at lexeme `i`, if any. Matches only
      start on the first lexeme of a line. */
  function MatchAt(k: PassKind, ts: Lexemes, i: nat, lib: string): (r: Option<Match>)
    requires i < |ts|
    ensures r.Some? ==> i < r.value.end <= |ts|
  {
    if !ts[i].bol then None
    else
      match k
      case UsePass => MatchUse(ts, i, lib)
      case EntityPass => MatchEntity(ts, i, lib)
      case ArchitecturePass => MatchArchitecture(ts, i, lib)
      case PackagePass => MatchPackage(ts, i, lib)
      case ComponentPass => MatchComponent(ts, i)
      case SignalPass => MatchDeclaration(ts, i, "signal")
      case ConstantPass => MatchDeclaration(ts, i, "constant")
      case RecordPass => MatchRecord(ts, i)
      case FunctionPass => MatchFunction(ts, i)
      case InstancePass => MatchInstance(ts, i, lib)
      case LibraryPass => MatchLibrary(ts, i)
  }

  // ---------------------------------------------------------------------
  // What each pass may add

  /** The shape of a `use` require: a lower-case package name, kind
      PACKAGE, and a library that is the file's own or a lower-case name
      other than `work`. */
  predicate UseShaped(r: Relation, lib: string) {
    && r.kind == Package
    && Lower(r.name) == r.name
    && (r.library == lib || (Lower(r.library) == r.library && r.library != "work"))
  }

  /** What pass `k` can contribute to a file in library `lib`. */
  predicate PassContributes(k: PassKind, lib: string, prov: seq<Relation>, req: seq<Relation>, libs: set<string>) {
    match k
    case UsePass =>
      prov == [] && libs == {} && forall n :: 0 <= n < |req| ==> UseShaped(req[n], lib)
    case EntityPass =>
      req == [] && libs == {}
      && forall n :: 0 <= n < |prov| ==> prov[n].kind == Entity && prov[n].library == lib
    case ArchitecturePass =>
      libs == {} && |prov| == |req|
      && forall n :: 0 <= n < |req| ==>
           req[n].kind == Entity && req[n].library == lib
           && prov[n] == Relation(req[n].name, lib, Architecture)
    case PackagePass =>
      req == [] && libs == {}
      && forall n :: 0 <= n < |prov| ==> prov[n].kind == Package && prov[n].library == lib
    case InstancePass =>
      prov == [] && libs == {} && forall n :: 0 <= n < |req| ==> req[n].kind == Entity
    case LibraryPass => prov == [] && req == []
    case _ => prov == [] && req == [] && libs == {}
  }

  lemma UseMatchContributes(ts: Lexemes, i: nat, lib: string)
    requires MatchUse(ts, i, lib).Some?
    ensures var m := MatchUse(ts, i, lib).value;
            PassContributes(UsePass, lib, m.provided, m.required, m.libraries)
    ensures IsWordAt(ts, i + 1) && IsWordAt(ts, i + 3)
    ensures var m := MatchUse(ts, i, lib).value;
            var l := Lower(WordAt(ts, i + 1));
            m.required == [Relation(Lower(WordAt(ts, i + 3)), if l == "work" then lib else l, Package)]
  {
    var m := MatchUse(ts, i, lib).value;
    LowerIdempotent(WordAt(ts, i + 3));
    LowerIdempotent(WordAt(ts, i + 1));
    assert UseShaped(m.required[0], lib);
  }

  lemma EntityMatchContributes(ts: Lexemes, i: nat, lib: string)
    requires MatchEntity(ts, i, lib).Some?
    ensures var m := MatchEntity(ts, i, lib).value;
            PassContributes(EntityPass, lib, m.provided, m.required, m.libraries)
    ensures IsWordAt(ts, i + 1)
            && MatchEntity(ts, i, lib).value.provided == [Relation(WordAt(ts, i + 1), lib, Entity)]
  {
  }

  /** An instantiation requires one entity: either the word after the
      label's colon, in the file's library, or the `e` of `entity L.e`, in
      library `L` unless `L` is exactly `work`. */
  lemma InstanceMatchContributes(ts: Lexemes, i: nat, lib: string)
    requires MatchInstance(ts, i, lib).Some?
    ensures var m := MatchInstance(ts, i, lib).value;
            PassContributes(InstancePass, lib, m.provided, m.required, m.libraries)
    ensures LibraryForm(ts, i) ==>
              MatchInstance(ts, i, lib).value.required
              == [Relation(WordAt(ts, i + 5),
                           if WordAt(ts, i + 3) == "work" then lib else WordAt(ts, i + 3),
                           Entity)]
    ensures !LibraryForm(ts, i) ==>
              IsWordAt(ts, i + 2)
              && MatchInstance(ts, i, lib).value.required == [Relation(WordAt(ts, i + 2), lib, Entity)]
  {
  }

  /** A single match contributes what its pass may contribute. */
  lemma MatchContributes(k: PassKind, ts: Lexemes, i: nat, lib: string)
    requires i < |ts| && MatchAt(k, ts, i, lib).Some?
    ensures var m := MatchAt(k, ts, i, lib).value;
            PassContributes(k, lib, m.provided, m.required, m.libraries)
  {
    match k
    case UsePass => UseMatchContributes(ts, i, lib);
    case EntityPass => EntityMatchContributes(ts, i, lib);
    case InstancePass => InstanceMatchContributes(ts, i, lib);
    case _ =>
  }

  /** Contributions of successive matches concatenate. */
  lemma ContributesAppend(k: PassKind, lib: string,
                          p1: seq<Relation>, r1: seq<Relation>, l1: set<string>,
                          p2: seq<Relation>, r2: seq<Relation>, l2: set<string>)
    requires PassContributes(k, lib, p1, r1, l1)
    requires PassContributes(k, lib, p2, r2, l2)
    ensures PassContributes(k, lib, p1 + p2, r1 + r2, l1 + l2)
  {
    if k == ArchitecturePass {
      forall n | 0 <= n < |r1 + r2|
        ensures (r1 + r2)[n].kind == Entity && (r1 + r2)[n].library == lib
                && (p1 + p2)[n] == Relation((r1 + r2)[n].name, lib, Architecture)
      {
        if n >= |r1| {
          assert (r1 + r2)[n] == r2[n - |r1|] && (p1 + p2)[n] == p2[n - |p1|];
        } else {
          assert (r1 + r2)[n] == r1[n] && (p1 + p2)[n] == p1[n];
        }
      }
    }
  }

  // ---------------------------------------------------------------------
  // Running a pass

  datatype PassResult = PassResult(
    out: Lexemes,
    provided: seq<Relation>,
    required: seq<Relation>,
    libraries: set<string>)

  /** The substitution of pass `k` over `ts[i..]`. */
  function RunFrom(k: PassKind, ts: Lexemes, lib: string, i: nat): (r: PassResult)
    requires i <= |ts|
    ensures PassContributes(k, lib, r.provided, r.required, r.libraries)
    ensures |r.out| <= |ts| - i
    ensures i < |ts| && MatchAt(k, ts, i, lib).Some? ==>
              var m := MatchAt(k, ts, i, lib).value;
              0 < |r.out| && r.out[0] == Lexeme(Marker(MarkerTag(k)), true, true)
              && m.provided <= r.provided && m.required <= r.required
    ensures i < |ts| && MatchAt(k, ts, i, lib).None? ==> 0 < |r.out| && r.out[0] == ts[i]
    ensures forall n :: 0 <= n < |r.out| ==>
              r.out[n].tok == Marker(MarkerTag(k)) || r.out[n] in ts[i..]
    decreases |ts| - i
  {
    if i == |ts| then PassResult([], [], [], {})
    else
      match MatchAt(k, ts, i, lib)
      case Some(m) =>
        var rest := RunFrom(k, ts, lib, m.end);
        MatchContributes(k, ts, i, lib);
        ContributesAppend(k, lib, m.provided, m.required, m.libraries,
                          rest.provided, rest.required, rest.libraries);
        PassResult([Lexeme(Marker(MarkerTag(k)), true, true)] + rest.out,
                   m.provided + rest.provided, m.required + rest.required,
                   m.libraries + rest.libraries)
      case None =>
        var rest := RunFrom(k, ts, lib, i + 1);
        PassResult([ts[i]] + rest.out, rest.provided, rest.required, rest.libraries)
  }

  function Run(k: PassKind, ts: Lexemes, lib: string): PassResult {
    RunFrom(k, ts, lib, 0)
  }

  /** A pass over text that one match covers entirely leaves only its
      marker and adds exactly what that match adds. */
  lemma RunSingleMatch(k: PassKind, ts: Lexemes, lib: string, m: Match)
    requires 0 < |ts| && MatchAt(k, ts, 0, lib) == Some(m) && m.end == |ts|
    ensures Run(k, ts, lib)
            == PassResult([Lexeme(Marker(MarkerTag(k)), true, true)], m.provided, m.required, m.libraries)
  {
    assert RunFrom(k, ts, lib, |ts|) == PassResult([], [], [], {});
  }

  /** No pattern starts at a marker: what an earlier pass replaced is
      never read again. */
  lemma MarkerInert(k: PassKind, ts: Lexemes, i: nat, lib: string)
    requires i < |ts| && ts[i].tok.Marker?
    ensures MatchAt(k, ts, i, lib).None?
  {
  }

  /** A pass over markers only finds nothing and leaves them as they are. */
  lemma {:induction false} MarkersInert(k: PassKind, ts: Lexemes, i: nat, lib: string)
    requires i <= |ts|
    requires forall n :: i <= n < |ts| ==> ts[n].tok.Marker?
    ensures RunFrom(k, ts, lib, i) == PassResult(ts[i..], [], [], {})
    decreases |ts| - i
  {
    if i < |ts| {
      MarkerInert(k, ts, i, lib);
      MarkersInert(k, ts, i + 1, lib);
      assert [ts[i]] + ts[i + 1..] == ts[i..];
    }
  }

  /** A pass that consumes the whole text leaves nothing for the instance
      pass to find: whatever the component, signal, constant, record or
      function pass (or any other) replaces never yields an instance
      require. */
  lemma DeclarationHidesInstance(k: PassKind, ts: Lexemes, lib: string, m: Match)
    requires 0 < |ts| && MatchAt(k, ts, 0, lib) == Some(m) && m.end == |ts|
    ensures Run(InstancePass, Run(k, ts, lib).out, lib).required == []
  {
    RunSingleMatch(k, ts, lib, m);
    var marked := [Lexeme(Marker(MarkerTag(k)), true, true)];
    MarkersInert(InstancePass, marked, 0, lib);
  }
}

=== FILE: quartus.dfy ===
/** The Quartus synthesis back end: the TCL property line builder, the
    device-family classifier and the project command list. Manifest values
    and property fields are strings or Python's `None`. */
module Quartus {
  import opened Strings
  import opened Outcomes

  // ---------------------------------------------------------------------
  // Command codes

  const SetGlobalInstance := 0
  const SetInstanceAssignment := 1
  const SetLocationAssignment := 2
  const SetGlobalAssignment := 3

  /** The TCL command of each property code. */
  const PropType: map<string, int> := map[
    "set_global_instance" := SetGlobalInstance,
    "set_instance_assignment" := SetInstanceAssignment,
    "set_location_assignment" := SetLocationAssignment,
    "set_global_assignment" := SetGlobalAssignment]

  /** Why a property line or the command list cannot be built. */
  datatype EmitError =
    | UnknownCommand(code: int)   // the code is no value of `PropType`
    | MissingValue                // `name` is given but `value` is not
    | NotADict(item: string)      // a user property that is not a dictionary

  /** `code` is the code of some command of the table. */
  predicate IsCode(code: int) {
    exists n :: n in PropType && PropType[n] == code
  }

  lemma CodesOfTable(code: int)
    ensures IsCode(code) <==> SetGlobalInstance <= code <= SetGlobalAssignment
  {
    if SetGlobalInstance <= code <= SetGlobalAssignment {
      var names := ["set_global_instance", "set_instance_assignment",
                    "set_location_assignment", "set_global_assignment"];
      assert names[code] in PropType && PropType[names[code]] == code;
    }
  }

  /** The command name whose code is `code`: the inverted `PropType`. */
  function CommandName(code: int): (r: Result<string, EmitError>)
    ensures r.Ok? <==> IsCode(code)
    ensures r.Ok? ==> r.value in PropType && PropType[r.value] == code
    ensures r.Err? ==> r.error == UnknownCommand(code)
  {
    CodesOfTable(code);
    if code == SetGlobalInstance then Ok("set_global_instance")
    else if code == SetInstanceAssignment then Ok("set_instance_assignment")
    else if code == SetLocationAssignment then Ok("set_location_assignment")
    else if code == SetGlobalAssignment then Ok("set_global_assignment")
    else Err(UnknownCommand(code))
  }

  /** Each command of the table is named back from its own code. */
  lemma CommandNameInverts(name: string)
    requires name in PropType
    ensures CommandName(PropType[name]) == Ok(name)
  {
  }

  // ---------------------------------------------------------------------
  // Property lines

  /** A dictionary value: a string or `None`. */
  datatype Value = PyNone | Text(s: string)

  type Property = map<string, Value>

  /** A field after the defaults are merged in: a key the property does
      not give reads as `None`. */
  function Field(p: Property, key: string): Value {
    if key in p then p[key] else PyNone
  }

  predicate Given(p: Property, key: string) {
    Field(p, key).Text?
  }

  /** `%s` formatting of a value. */
  function Format(v: Value): string {
    match v
    case PyNone => "None"
    case Text(s) => s
  }

  /** A value between escaped quotes, `\"…\"`. */
  function Quoted(s: string): string {
    "\\\"" + s + "\\\""
  }

  /** The words for one optional field when it is given: its flag (none
      for `what`), its value, and for `name` also the quoted `value`. */
  function FieldWords(p: Property, key: string): seq<string> {
    if !Given(p, key) then []
    else if key == "what" then [Field(p, key).s]
    else if key == "name" then ["-name", Field(p, key).s, Quoted(Format(Field(p, "value")))]
    else ["-" + key, Field(p, key).s]
  }

  /** The optional fields in the order they are emitted. */
  const OptionalFields: seq<string> := ["what", "name", "from", "tag", "to", "section_id"]

  /** Reference reading of the emitter: the command name, then the words of
      each optional field in table order. */
  function TableWords(p: Property, keys: seq<string>): seq<string> {
    if |keys| == 0 then []
    else FieldWords(p, keys[0]) + TableWords(p, keys[1..])
  }

  /** The words of a property line, built field by field as the emitter
      appends them. */
  function EmitWords(command: int, p: Property): (r: Result<seq<string>, EmitError>)
    ensures r.Err? <==> !IsCode(command) || (Given(p, "name") && "value" !in p)
    ensures r.Ok? ==> |r.value| >= 1 && r.value[0] in PropType && PropType[r.value[0]] == command
    ensures r.Ok? ==> (|r.value| == 1 <==> forall k :: k in OptionalFields ==> !Given(p, k))
    ensures r.Ok? && Given(p, "name") ==>
              (exists i :: 0 <= i < |r.value| - 2 && r.value[i] == "-name"
                && r.value[i + 1] == Field(p, "name").s && r.value[i + 2] == Quoted(Format(p["value"])))
  {
    match CommandName(command)
    case Err(e) => Err(e)
    case Ok(head) =>
      if Given(p, "name") && "value" !in p then Err(MissingValue)
      else
        var words := LineWords(head, p);
        assert Given(p, "name") ==>
          (var w := if Given(p, "what") then 1 else 0;
           words[1 + w] == "-name" && words[2 + w] == Field(p, "name").s
           && words[3 + w] == Quoted(Format(p["value"])));
        Ok(words)
  }

  /** The words the emitter appends after the command name, field by field;
      a `name` field comes with its `value`. */
  function LineWords(head: string, p: Property): seq<string>
    requires Given(p, "name") ==> "value" in p
  {
    var what := if Given(p, "what") then [Field(p, "what").s] else [];
    var name := if Given(p, "name")
      then ["-name", Field(p, "name").s, Quoted(Format(p["value"]))] else [];
    var from := if Given(p, "from") then ["-from", Field(p, "from").s] else [];
    var tag := if Given(p, "tag") then ["-tag", Field(p, "tag").s] else [];
    var to := if Given(p, "to") then ["-to", Field(p, "to").s] else [];
    var section := if Given(p, "section_id") then ["-section_id", Field(p, "section_id").s] else [];
    [head] + (what + (name + (from + (tag + (to + section)))))
  }

  /** The emitter agrees with the table reading: command name first, then
      the optional fields in the fixed order, absent ones contributing
      nothing. */
  lemma EmitWordsByTable(command: int, p: Property)
    requires EmitWords(command, p).Ok?
    ensures EmitWords(command, p).value
            == [CommandName(command).value] + TableWords(p, OptionalFields)
  {
    var t := OptionalFields;
    var w, n, f := FieldWords(p, "what"), FieldWords(p, "name"), FieldWords(p, "from");
    var g, o, c := FieldWords(p, "tag"), FieldWords(p, "to"), FieldWords(p, "section_id");
    EmitWordsByFields(command, p);
    assert TableWords(p, t) == w + (n + (f + (g + (o + c)))) by {
      assert TableWords(p, t[6..]) == [];
      assert TableWords(p, t[5..]) == c by { assert t[5..][1..] == t[6..]; }
      assert TableWords(p, t[4..]) == o + c by { assert t[4..][1..] == t[5..]; }
      assert TableWords(p, t[3..]) == g + (o + c) by { assert t[3..][1..] == t[4..]; }
      assert TableWords(p, t[2..]) == f + (g + (o + c)) by { assert t[2..][1..] == t[3..]; }
      assert TableWords(p, t[1..]) == n + (f + (g + (o + c))) by { assert t[1..][1..] == t[2..]; }
    }
  }

  lemma EmitWordsByFields(command: int, p: Property)
    requires EmitWords(command, p).Ok?
    ensures EmitWords(command, p).value
            == [CommandName(command).value] + (FieldWords(p, "what") + (FieldWords(p, "name")
               + (FieldWords(p, "from") + (FieldWords(p, "tag") + (FieldWords(p, "to")
               + FieldWords(p, "section_id"))))))
  {
    LineWordsByFields(CommandName(command).value, p);
  }

  lemma LineWordsByFields(head: string, p: Property)
    requires Given(p, "name") ==> "value" in p
    ensures LineWords(head, p)
            == [head] + (FieldWords(p, "what") + (FieldWords(p, "name")
               + (FieldWords(p, "from") + (FieldWords(p, "tag") + (FieldWords(p, "to")
               + FieldWords(p, "section_id"))))))
  {
    FlagFieldWords(p, "from", "-from");
    FlagFieldWords(p, "tag", "-tag");
    FlagFieldWords(p, "to", "-to");
    FlagFieldWords(p, "section_id", "-section_id");
  }

  /** A field other than `what` and `name` contributes its flag and its
      value. */
  lemma FlagFieldWords(p: Property, key: string, flag: string)
    requires key != "what" && key != "name" && flag == "-" + key
    ensures FieldWords(p, key) == if Given(p, key) then [flag, Field(p, key).s] else []
  {
  }

  /** `_emit_property`: the words joined with single spaces. */
  function EmitProperty(command: int, p: Property): (r: Result<string, EmitError>)
    ensures r.Ok? <==> EmitWords(command, p).Ok?
    ensures r.Err? ==> r.error == EmitWords(command, p).error
    ensures r.Ok? && (forall k :: k in OptionalFields ==> !Given(p, k)) ==>
              r.value == CommandName(command).value
  {
    var words :- EmitWords(command, p);
    Ok(Join(words, " "))
  }

  /** When no word holds a space, splitting the line on spaces gives the
      words back. */
  lemma EmitPropertySplits(command: int, p: Property)
    requires EmitWords(command, p).Ok?
    requires forall i :: 0 <= i < |EmitWords(command, p).value| ==> ' ' !in EmitWords(command, p).value[i]
    ensures Split(EmitProperty(command, p).value, ' ') == EmitWords(command, p).value
  {
    SplitJoin(EmitWords(command, p).value, ' ');
  }

  /** The TCL line that assigns `value` to the global setting `name`. */
  function Assignment(name: string, value: string): string {
    "set_global_assignment -name " + name + " " + Quoted(value)
  }

  function Assign(name: string, value: string): Property {
    map["name" := Text(name), "value" := Text(value)]
  }

  /** Emitting a property with only a name and a value gives that line. */
  lemma GlobalAssignmentLine(name: string, value: string)
    ensures EmitProperty(SetGlobalAssignment, Assign(name, value)) == Ok(Assignment(name, value))
  {
    AssignmentWords(name, value);
    var words := ["set_global_assignment", "-name", name, Quoted(value)];
    JoinFour(words[0], words[1], words[2], words[3]);
    assert words[0] + " " + (words[1] + " " + (words[2] + " " + words[3]))
           == "set_global_assignment -name " + name + " " + Quoted(value);
  }

  /** The words of a name-and-value property. */
  lemma AssignmentWords(name: string, value: string)
    ensures EmitWords(SetGlobalAssignment, Assign(name, value))
            == Ok(["set_global_assignment", "-name", name, Quoted(value)])
  {
    var p := Assign(name, value);
    assert !Given(p, "what") && !Given(p, "from") && !Given(p, "tag") && !Given(p, "to");
    assert !Given(p, "section_id") && Given(p, "name") && p["value"] == Text(value);
    assert CommandName(SetGlobalAssignment) == Ok("set_global_assignment");
    var words := ["set_global_assignment", "-name", name, Quoted(value)];
    LineWordsByFields(words[0], p);
    assert FieldWords(p, "name") == words[1..];
    assert FieldWords(p, "what") == [] && FieldWords(p, "from") == [] && FieldWords(p, "tag") == [];
    assert FieldWords(p, "to") == [] && FieldWords(p, "section_id") == [];
    assert [] + (words[1..] + ([] + ([] + ([] + [])))) == words[1..];
    assert LineWords(words[0], p) == [words[0]] + words[1..] == words;
  }

  /** Four words joined with single spaces. */
  lemma JoinFour(a: string, b: string, c: string, d: string)
    ensures Join([a, b, c, d], " ") == a + " " + (b + " " + (c + " " + d))
  {
    assert Join([c, d], " ") == c + " " + d by { assert [c, d][1..] == [d]; }
    assert Join([b, c, d], " ") == b + " " + (c + " " + d) by { assert [b, c, d][1..] == [c, d]; }
    assert [a, b, c, d][1..] == [b, c, d];
  }

  // ---------------------------------------------------------------------
  // Device family

  /** Family patterns `^PREFIX.*$`, in table order. */
  const FamilyNames: seq<(string, string)> := [
    ("EP2AGX", "Arria II GX"),
    ("EP1C", "Cyclone"),
    ("EP2C", "Cyclone II"),
    ("EP3C", "Cyclone III"),
    ("EP4C", "Cyclone IV"),
    ("EP4CE", "Cyclone IV E"),
    ("EP4CGX", "Cyclone IV GX"),
    ("5A", "Arria V"),
    ("5S", "Stratix V")]

  /** `.*$` on the text after the prefix: no line break, except one that
      ends the text. */
  predicate RestOfLine(rest: string) {
    forall i :: 0 <= i < |rest| && rest[i] == '\n' ==> i == |rest| - 1
  }

  /** `re.match("^" + prefix + ".*$", u)`. */
  predicate PatternMatches(prefix: string, u: string) {
    HasPrefix(u, prefix) && RestOfLine(u[|prefix|..])
  }

  /** The family of the last of the first `n` table rows that matches. */
  function LastMatch(u: string, n: nat): (r: Option<string>)
    requires n <= |FamilyNames|
    ensures r.None? <==> forall k :: 0 <= k < n ==> !PatternMatches(FamilyNames[k].0, u)
    ensures r.Some? ==> exists k :: 0 <= k < n && FamilyNames[k].1 == r.value
                          && PatternMatches(FamilyNames[k].0, u)
                          && forall j :: k < j < n ==> !PatternMatches(FamilyNames[j].0, u)
  {
    if n == 0 then None
    else if PatternMatches(FamilyNames[n - 1].0, u) then Some(FamilyNames[n - 1].1)
    else LastMatch(u, n - 1)
  }

  /** The guessing loop: walks the table in order and keeps overwriting
      the family with every pattern that matches the upper-cased device. */
  method GuessFamily(device: string) returns (family: Option<string>)
    ensures family == LastMatch(Upper(device), |FamilyNames|)
  {
    var u := Upper(device);
    family := None;
    var i := 0;
    while i < |FamilyNames|
      invariant 0 <= i <= |FamilyNames|
      invariant family == LastMatch(u, i)
    {
      if PatternMatches(FamilyNames[i].0, u) {
        family := Some(FamilyNames[i].1);
      }
      i := i + 1;
    }
  }

  datatype SynError =
    | FamilyNotGuessed         // no family given and no pattern matches
    | MissingKey(key: string)  // a manifest key read without a default

  /** `__get_family_string`: a given family is kept as it is; otherwise the
      family is guessed from the device. */
  function FamilyString(family: Option<string>, device: string): (r: Result<string, SynError>)
    ensures family.Some? ==> r == Ok(family.value)
    ensures family.None? ==> (r.Err? <==> LastMatch(Upper(device), |FamilyNames|).None?)
    ensures family.None? && r.Ok? ==> Some(r.value) == LastMatch(Upper(device), |FamilyNames|)
    ensures family.None? && r.Ok? ==>
              (exists k :: 0 <= k < |FamilyNames|
                 && FamilyNames[k].1 == r.value && PatternMatches(FamilyNames[k].0, Upper(device))
                 && forall j :: k < j < |FamilyNames| ==> !PatternMatches(FamilyNames[j].0, Upper(device)))
    ensures r.Err? ==> r.error == FamilyNotGuessed
  {
    if family.Some? then Ok(family.value)
    else
      match LastMatch(Upper(device), |FamilyNames|)
      case Some(f) => Ok(f)
      case None => Err(FamilyNotGuessed)
  }

  /** The upper-cased device begins with `prefix`, on a single line. */
  predicate DeviceStarts(device: string, prefix: string) {
    HasPrefix(Upper(device), prefix) && '\n' !in device
  }

  lemma UpperKeepsLines(device: string)
    requires '\n' !in device
    ensures forall n :: 0 <= n <= |device| ==> RestOfLine(Upper(device)[n..])
  {
  }

  /** An `EP4CE…` device is a Cyclone IV E, not a Cyclone IV: the later,
      longer pattern wins. */
  lemma CycloneFourEGuessed(device: string)
    requires DeviceStarts(device, "EP4CE")
    ensures FamilyString(None, device) == Ok("Cyclone IV E")
  {
    var u := Upper(device);
    UpperKeepsLines(device);
    assert PatternMatches(FamilyNames[5].0, u);
    assert LastMatch(u, 6) == Some("Cyclone IV E");
    assert !PatternMatches(FamilyNames[6].0, u) by { assert u[4] == 'E'; }
    assert !PatternMatches(FamilyNames[7].0, u) && !PatternMatches(FamilyNames[8].0, u) by {
      assert u[0] == 'E';
    }
    assert LastMatch(u, 9) == LastMatch(u, 6);
  }

  /** An `EP4CGX…` device is a Cyclone IV GX. */
  lemma CycloneFourGXGuessed(device: string)
    requires DeviceStarts(device, "EP4CGX")
    ensures FamilyString(None, device) == Ok("Cyclone IV GX")
  {
    var u := Upper(device);
    UpperKeepsLines(device);
    assert PatternMatches(FamilyNames[6].0, u);
    assert LastMatch(u, 7) == Some("Cyclone IV GX");
    assert !PatternMatches(FamilyNames[7].0, u) && !PatternMatches(FamilyNames[8].0, u) by {
      assert u[0] == 'E';
    }
    assert LastMatch(u, 9) == LastMatch(u, 7);
  }

  /** A device that no pattern prefixes has no guessable family. */
  lemma UnknownDeviceFails(device: string)
    requires forall k :: 0 <= k < |FamilyNames| ==> !HasPrefix(Upper(device), FamilyNames[k].0)
    ensures FamilyString(None, device) == Err(FamilyNotGuessed)
  {
  }

  // ---------------------------------------------------------------------
  // `_makefile_syn_top`

  /** The synthesis keys of the manifest; `None` is a key that is absent. */
  datatype SynManifest = SynManifest(
    family: Option<string>,
    device: Option<string>,
    package: Option<string>,
    grade: Option<string>)

  datatype SynTop = SynTop(family: string, device: string)

  /** The family (guessed from the device as written, or `""` when it is
      absent) and the full device string device + package + grade. */
  function SynTopValues(m: SynManifest): (r: Result<SynTop, SynError>)
    ensures var guess := FamilyString(m.family, DeviceOrEmpty(m));
            r.Err? <==> guess.Err? || m.device.None? || m.package.None? || m.grade.None?
    ensures FamilyString(m.family, DeviceOrEmpty(m)).Err? ==> r == Err(FamilyNotGuessed)
    ensures FamilyString(m.family, DeviceOrEmpty(m)).Ok? ==>
              (m.device.None? ==> r == Err(MissingKey("syn_device")))
              && (m.device.Some? && m.package.None? ==> r == Err(MissingKey("syn_package")))
              && (m.device.Some? && m.package.Some? && m.grade.None? ==> r == Err(MissingKey("syn_grade")))
    ensures r.Ok? ==> r.value.device == m.device.value + m.package.value + m.grade.value
    ensures r.Ok? ==> FamilyString(m.family, m.device.value) == Ok(r.value.family)
    ensures m.family.None? && m.device.Some? && m.package.Some? && m.grade.Some? ==>
              (r.Ok? <==> LastMatch(Upper(m.device.value), |FamilyNames|).Some?)
    ensures m.family.None? && r.Ok? ==>
              Some(r.value.family) == LastMatch(Upper(m.device.value), |FamilyNames|)
    ensures m.family.Some? && m.device.Some? && m.package.Some? && m.grade.Some? ==>
              r == Ok(SynTop(m.family.value, m.device.value + m.package.value + m.grade.value))
  {
    var family :- FamilyString(m.family, DeviceOrEmpty(m));
    if m.device.None? then Err(MissingKey("syn_device"))
    else if m.package.None? then Err(MissingKey("syn_package"))
    else if m.grade.None? then Err(MissingKey("syn_grade"))
    else Ok(SynTop(family, m.device.value + m.package.value + m.grade.value))
  }

  /** The device the family guess reads: `syn_device`, or `''` when the
      manifest has none. */
  function DeviceOrEmpty(m: SynManifest): string {
    if m.device.Some? then m.device.value else ""
  }

  /** A complete manifest naming an `EP4CE` device and no family is given
      family `Cyclone IV E` and the device string of its three parts. */
  lemma SynTopCycloneFourE(m: SynManifest)
    requires m.family.None? && m.device.Some? && m.package.Some? && m.grade.Some?
    requires DeviceStarts(m.device.value, "EP4CE")
    ensures SynTopValues(m)
            == Ok(SynTop("Cyclone IV E", m.device.value + m.package.value + m.grade.value))
  {
    CycloneFourEGuessed(m.device.value);
  }

  // ---------------------------------------------------------------------
  // `_makefile_syn_tcl`

  /** An entry of `syn_properties`: a dictionary, or anything else, kept
      as its printed form. */
  datatype UserProperty = Dict(p: Property) | Other(printed: string)

  /** A user entry that yields a line: a dictionary whose property emits. */
  predicate Emittable(u: UserProperty) {
    u.Dict? && EmitProperty(SetGlobalAssignment, u.p).Ok?
  }

  /** The error an entry that yields no line raises. */
  function UserError(u: UserProperty): EmitError
    requires !Emittable(u)
  {
    if u.Other? then NotADict(u.printed) else EmitProperty(SetGlobalAssignment, u.p).error
  }

  /** The lines for the user properties, in order; the first entry that is
      not a dictionary or cannot be emitted stops the list. */
  function UserLines(props: seq<UserProperty>): (r: Result<seq<string>, EmitError>)
    ensures r.Ok? <==> forall k :: 0 <= k < |props| ==> Emittable(props[k])
    ensures r.Ok? ==> |r.value| == |props|
    ensures r.Ok? ==> forall k :: 0 <= k < |props| ==>
              r.value[k] == EmitProperty(SetGlobalAssignment, props[k].p).value
    ensures r.Err? ==>
              (exists k :: 0 <= k < |props|
                 && (forall j :: 0 <= j < k ==> Emittable(props[j]))
                 && !Emittable(props[k]) && r.error == UserError(props[k]))
  {
    if |props| == 0 then Ok([])
    else if !Emittable(props[0]) then Err(UserError(props[0]))
    else
      var line := EmitProperty(SetGlobalAssignment, props[0].p).value;
      var rest := UserLines(props[1..]);
      assert forall k :: 1 <= k < |props| ==> props[k] == props[1..][k - 1];
      match rest
      case Err(e) =>
        assert exists k :: 1 <= k < |props|
                 && (forall j :: 1 <= j < k ==> Emittable(props[j]))
                 && !Emittable(props[k]) && e == UserError(props[k]);
        Err(e)
      case Ok(ls) => Ok([line] + ls)
  }

  /** The existing control followed by the FAMILY, DEVICE and
      TOP_LEVEL_ENTITY assignments. */
  function FixedCommands(control: string): (r: seq<string>)
    ensures r == [control,
                  Assignment("FAMILY", "$(SYN_FAMILY)"),
                  Assignment("DEVICE", "$(SYN_DEVICE)"),
                  Assignment("TOP_LEVEL_ENTITY", "$(TOP_MODULE)")]
  {
    GlobalAssignmentLine("FAMILY", "$(SYN_FAMILY)");
    GlobalAssignmentLine("DEVICE", "$(SYN_DEVICE)");
    GlobalAssignmentLine("TOP_LEVEL_ENTITY", "$(TOP_MODULE)");
    [control,
     EmitProperty(SetGlobalAssignment, Assign("FAMILY", "$(SYN_FAMILY)")).value,
     EmitProperty(SetGlobalAssignment, Assign("DEVICE", "$(SYN_DEVICE)")).value,
     EmitProperty(SetGlobalAssignment, Assign("TOP_LEVEL_ENTITY", "$(TOP_MODULE)")).value]
  }

  /** The command list of the project control: the existing control, the
      FAMILY, DEVICE and TOP_LEVEL_ENTITY assignments, the user properties
      in order, then one SEARCH_PATH assignment per include directory. */
  function SynTclCommands(control: string, props: seq<UserProperty>, includeDirs: seq<string>)
    : (r: Result<seq<string>, EmitError>)
    ensures r.Ok? <==> UserLines(props).Ok?
    ensures r.Err? ==> r.error == UserLines(props).error
    ensures r.Ok? ==> |r.value| == 4 + |props| + |includeDirs|
    ensures r.Ok? ==> r.value[..4] == FixedCommands(control)
    ensures r.Ok? ==> r.value[4..4 + |props|] == UserLines(props).value
    ensures r.Ok? ==> r.value[4 + |props|..] == SearchPaths(includeDirs)
  {
    var user :- UserLines(props);
    var fixed := FixedCommands(control);
    var all := fixed + user + SearchPaths(includeDirs);
    assert all[..4] == fixed && all[4..4 + |props|] == user;
    assert all[4 + |props|..] == SearchPaths(includeDirs);
    Ok(all)
  }

  /** One SEARCH_PATH assignment per include directory. */
  function SearchPaths(dirs: seq<string>): (r: seq<string>)
    ensures |r| == |dirs|
    ensures forall k :: 0 <= k < |dirs| ==>
              r[k] == Assignment("SEARCH_PATH", dirs[k])
  {
    if |dirs| == 0 then []
    else
      GlobalAssignmentLine("SEARCH_PATH", dirs[0]);
      [EmitProperty(SetGlobalAssignment, Assign("SEARCH_PATH", dirs[0])).value] + SearchPaths(dirs[1..])
  }

  /** The new project control: the command list joined by line breaks. The
      old control comes first, whole, and when no later command holds a line
      break, the lines after it are exactly the later commands. */
  function SynTcl(control: string, props: seq<UserProperty>, includeDirs: seq<string>)
    : (r: Result<string, EmitError>)
    ensures r.Ok? <==> SynTclCommands(control, props, includeDirs).Ok?
    ensures r.Err? ==> r.error == SynTclCommands(control, props, includeDirs).error
    ensures r.Ok? ==> HasPrefix(r.value, control + "\n")
    ensures r.Ok? ==>
              var cmds := SynTclCommands(control, props, includeDirs).value;
              (forall k :: 1 <= k < |cmds| ==> '\n' !in cmds[k]) ==>
                Split(r.value[|control| + 1..], '\n') == cmds[1..]
  {
    var commands :- SynTclCommands(control, props, includeDirs);
    SplitAfterFirst(commands, '\n');
    Ok(Join(commands, "\n"))
  }
}

=== FILE: scanner.dfy ===
/** The VHDL dependency scanner: strip comments and short strings, then run
    the structural passes in their fixed order, each on what the previous
    one left, appending the relations they find to the file's record. */
module VhdlScanner {
  import opened Strings
  import opened Outcomes
  import opened DepFiles
  import opened Lexer
  import opened Passes
  import Comments

  datatype ScanResult = ScanResult(
    buffer: Lexemes,
    provided: seq<Relation>,
    required: seq<Relation>,
    libraries: set<string>)

  /** Runs `kinds` in order, each on the buffer the previous one left,
      appending what each finds. */
  function RunPasses(kinds: seq<PassKind>, acc: ScanResult, lib: string): (r: ScanResult)
    ensures acc.provided <= r.provided && acc.required <= r.required
    ensures acc.libraries <= r.libraries
  {
    if |kinds| == 0 then acc
    else RunPasses(kinds[1..], Step(kinds[0], acc, lib), lib)
  }

  /** One pass on the buffer of `acc`, its findings appended. */
  function Step(k: PassKind, acc: ScanResult, lib: string): ScanResult {
    var p := Run(k, acc.buffer, lib);
    ScanResult(p.out, acc.provided + p.provided, acc.required + p.required,
               acc.libraries + p.libraries)
  }

  /** All passes over already lexed text of a file in library `lib`. The
      visible libraries start with the file's own one. */
  function Scan(ts: Lexemes, lib: string): ScanResult {
    RunPasses(PassOrder, ScanResult(ts, [], [], {lib}), lib)
  }

  /** The whole scanner on the raw text of one file. */
  function ScanText(text: string, lib: string): ScanResult {
    Scan(Lex(Comments.Strip(text)), lib)
  }

  datatype ParseError = AlreadyParsed

  /** Parsing a record: refused when it is already parsed, otherwise the
      found relations are appended and the record is marked parsed. */
  function Parse(f: DepFile, text: string): (r: Result<DepFile, ParseError>)
    ensures r.Err? <==> f.isParsed
    ensures r.Ok? ==> r.value.isParsed
    ensures r.Ok? ==> r.value.path == f.path && r.value.library == f.library
    ensures r.Ok? ==> f.provided <= r.value.provided && f.required <= r.value.required
  {
    if f.isParsed then Err(AlreadyParsed)
    else
      var s := ScanText(text, f.library);
      Ok(f.(provided := f.provided + s.provided,
            required := f.required + s.required,
            isParsed := true))
  }

  // ---------------------------------------------------------------------
  // Order of the appended relations

  /** Provides come in the order entity, architecture, package. */
  function ProvideRank(k: Kind): nat {
    match k
    case Entity => 0
    case Architecture => 1
    case Package => 2
  }

  /** Requires come in the order package (the `use` clauses), entity. */
  function RequireRank(k: Kind): nat {
    match k
    case Package => 0
    case Entity => 1
    case Architecture => 2
  }

  /** The rank of what a pass provides and of what it requires; passes
      that add nothing get a rank that keeps `PassOrder` sorted. */
  function PassProvideRank(k: PassKind): nat {
    match k
    case UsePass => 0
    case EntityPass => 0
    case ArchitecturePass => 1
    case PackagePass => 2
    case _ => 3
  }

  function PassRequireRank(k: PassKind): nat {
    if k == UsePass then 0 else 1
  }

  predicate RanksSorted(kinds: seq<PassKind>) {
    |kinds| <= 1 ||
    (PassProvideRank(kinds[0]) <= PassProvideRank(kinds[1])
     && PassRequireRank(kinds[0]) <= PassRequireRank(kinds[1])
     && RanksSorted(kinds[1..]))
  }

  predicate ProvidedSorted(rs: seq<Relation>) {
    forall a, b :: 0 <= a < b < |rs| ==> ProvideRank(rs[a].kind) <= ProvideRank(rs[b].kind)
  }

  predicate RequiredSorted(rs: seq<Relation>) {
    forall a, b :: 0 <= a < b < |rs| ==> RequireRank(rs[a].kind) <= RequireRank(rs[b].kind)
  }

  /** Every require is a `use` require or an entity require. */
  predicate RequiredShaped(rs: seq<Relation>, lib: string) {
    forall a :: 0 <= a < |rs| ==> UseShaped(rs[a], lib) || rs[a].kind == Entity
  }

  /** What a pass adds carries exactly the ranks the pass is given. */
  lemma PassRanks(k: PassKind, lib: string, p: PassResult)
    requires PassContributes(k, lib, p.provided, p.required, p.libraries)
    ensures forall a :: 0 <= a < |p.provided| ==> ProvideRank(p.provided[a].kind) == PassProvideRank(k)
    ensures forall a :: 0 <= a < |p.required| ==> RequireRank(p.required[a].kind) == PassRequireRank(k)
    ensures RequiredShaped(p.required, lib)
  {
  }

  lemma SortedAppend(xs: seq<Relation>, ys: seq<Relation>, rank: nat)
    requires ProvidedSorted(xs)
    requires forall a :: 0 <= a < |xs| ==> ProvideRank(xs[a].kind) <= rank
    requires forall a :: 0 <= a < |ys| ==> ProvideRank(ys[a].kind) == rank
    ensures ProvidedSorted(xs + ys)
  {
    forall a, b | 0 <= a < b < |xs + ys|
      ensures ProvideRank((xs + ys)[a].kind) <= ProvideRank((xs + ys)[b].kind)
    {
      if b < |xs| {
      } else if a < |xs| {
        assert (xs + ys)[b] == ys[b - |xs|];
      } else {
        assert (xs + ys)[a] == ys[a - |xs|] && (xs + ys)[b] == ys[b - |xs|];
      }
    }
  }

  lemma RequiredSortedAppend(xs: seq<Relation>, ys: seq<Relation>, rank: nat, lib: string)
    requires RequiredSorted(xs) && RequiredShaped(xs, lib) && RequiredShaped(ys, lib)
    requires forall a :: 0 <= a < |xs| ==> RequireRank(xs[a].kind) <= rank
    requires forall a :: 0 <= a < |ys| ==> RequireRank(ys[a].kind) == rank
    ensures RequiredSorted(xs + ys) && RequiredShaped(xs + ys, lib)
  {
    forall a, b | 0 <= a < b < |xs + ys|
      ensures RequireRank((xs + ys)[a].kind) <= RequireRank((xs + ys)[b].kind)
    {
      if b < |xs| {
      } else if a < |xs| {
        assert (xs + ys)[b] == ys[b - |xs|];
      } else {
        assert (xs + ys)[a] == ys[a - |xs|] && (xs + ys)[b] == ys[b - |xs|];
      }
    }
    forall a | 0 <= a < |xs + ys|
      ensures UseShaped((xs + ys)[a], lib) || (xs + ys)[a].kind == Entity
    {
      if a >= |xs| { assert (xs + ys)[a] == ys[a - |xs|]; }
    }
  }

  /** Running passes whose ranks never decrease keeps both relation lists
      in rank order. */
  lemma {:induction false} RunPassesSorted(kinds: seq<PassKind>, acc: ScanResult, lib: string)
    requires RanksSorted(kinds)
    requires ProvidedSorted(acc.provided) && RequiredSorted(acc.required)
    requires RequiredShaped(acc.required, lib)
    requires |kinds| > 0 ==>
      (forall a :: 0 <= a < |acc.provided| ==> ProvideRank(acc.provided[a].kind) <= PassProvideRank(kinds[0]))
      && (forall a :: 0 <= a < |acc.required| ==> RequireRank(acc.required[a].kind) <= PassRequireRank(kinds[0]))
    ensures var r := RunPasses(kinds, acc, lib);
            ProvidedSorted(r.provided) && RequiredSorted(r.required) && RequiredShaped(r.required, lib)
  {
    if |kinds| > 0 {
      var k := kinds[0];
      var p := Run(k, acc.buffer, lib);
      var next := ScanResult(p.out, acc.provided + p.provided, acc.required + p.required,
                             acc.libraries + p.libraries);
      PassRanks(k, lib, p);
      SortedAppend(acc.provided, p.provided, PassProvideRank(k));
      RequiredSortedAppend(acc.required, p.required, PassRequireRank(k), lib);
      if |kinds| > 1 {
        forall a | 0 <= a < |next.provided|
          ensures ProvideRank(next.provided[a].kind) <= PassProvideRank(kinds[1])
        {
          if a >= |acc.provided| { assert next.provided[a] == p.provided[a - |acc.provided|]; }
        }
        forall a | 0 <= a < |next.required|
          ensures RequireRank(next.required[a].kind) <= PassRequireRank(kinds[1])
        {
          if a >= |acc.required| { assert next.required[a] == p.required[a - |acc.required|]; }
        }
      }
      RunPassesSorted(kinds[1..], next, lib);
    }
  }

  /** The scanner appends provides in the order entity, architecture,
      package, and requires in the order `use` packages, then entities (of
      architectures and instances); every require is one of the two. */
  lemma ScanOrder(ts: Lexemes, lib: string)
    ensures ProvidedSorted(Scan(ts, lib).provided)
    ensures RequiredSorted(Scan(ts, lib).required)
    ensures RequiredShaped(Scan(ts, lib).required, lib)
  {
    PassOrderSorted();
    RunPassesSorted(PassOrder, ScanResult(ts, [], [], {lib}), lib);
  }

  /** The result of each pass in `kinds`, each run on the buffer the
      previous one left. */
  function Trace(kinds: seq<PassKind>, ts: Lexemes, lib: string): (r: seq<PassResult>)
    ensures |r| == |kinds|
    ensures forall j :: 0 <= j < |r| ==>
              PassContributes(kinds[j], lib, r[j].provided, r[j].required, r[j].libraries)
    decreases |kinds|
  {
    if |kinds| == 0 then []
    else
      var p := Run(kinds[0], ts, lib);
      [p] + Trace(kinds[1..], p.out, lib)
  }

  /** Everything the pass results from position `j` on require, in order. */
  function RequiredsFrom(ps: seq<PassResult>, j: nat): seq<Relation>
    requires j <= |ps|
    decreases |ps| - j
  {
    if j == |ps| then [] else ps[j].required + RequiredsFrom(ps, j + 1)
  }

  /** Everything the pass results from position `j` on provide, in order. */
  function ProvidedsFrom(ps: seq<PassResult>, j: nat): seq<Relation>
    requires j <= |ps|
    decreases |ps| - j
  {
    if j == |ps| then [] else ps[j].provided + ProvidedsFrom(ps, j + 1)
  }

  /** Each traced pass runs on what the one before it left. */
  lemma {:induction false} TraceChain(kinds: seq<PassKind>, ts: Lexemes, lib: string)
    requires 0 < |kinds|
    ensures Trace(kinds, ts, lib)[0] == Run(kinds[0], ts, lib)
    ensures forall j :: 0 < j < |kinds| ==>
              Trace(kinds, ts, lib)[j]
              == Run(kinds[j], Trace(kinds, ts, lib)[j - 1].out, lib)
    decreases |kinds|
  {
    var t := Trace(kinds, ts, lib);
    var p := Run(kinds[0], ts, lib);
    var rest := Trace(kinds[1..], p.out, lib);
    assert t == [p] + rest;
    if 1 < |kinds| {
      TraceChain(kinds[1..], p.out, lib);
      forall j | 0 < j < |kinds| ensures t[j] == Run(kinds[j], t[j - 1].out, lib) {
        if j == 1 {
          assert t[1] == rest[0];
        } else {
          assert t[j] == rest[j - 1] && t[j - 1] == rest[j - 2] && kinds[j] == kinds[1..][j - 1];
        }
      }
    }
  }

  lemma Assoc(a: seq<Relation>, b: seq<Relation>, c: seq<Relation>)
    ensures a + b + c == a + (b + c)
  {
  }

  /** Putting one result in front shifts the sums by one position. */
  lemma {:induction false} SumsShift(p: PassResult, rest: seq<PassResult>, j: nat)
    requires j <= |rest|
    ensures RequiredsFrom([p] + rest, j + 1) == RequiredsFrom(rest, j)
    ensures ProvidedsFrom([p] + rest, j + 1) == ProvidedsFrom(rest, j)
    decreases |rest| - j
  {
    if j < |rest| {
      assert ([p] + rest)[j + 1] == rest[j];
      SumsShift(p, rest, j + 1);
    }
  }

  /** Running passes appends what their trace provides and requires. */
  lemma {:induction false} RunPassesTrace(kinds: seq<PassKind>, acc: ScanResult, lib: string)
    ensures RunPasses(kinds, acc, lib).required
            == acc.required + RequiredsFrom(Trace(kinds, acc.buffer, lib), 0)
    ensures RunPasses(kinds, acc, lib).provided
            == acc.provided + ProvidedsFrom(Trace(kinds, acc.buffer, lib), 0)
    decreases |kinds|
  {
    if |kinds| == 0 {
      assert acc.required + [] == acc.required && acc.provided + [] == acc.provided;
    } else {
      var p := Run(kinds[0], acc.buffer, lib);
      var rest := Trace(kinds[1..], p.out, lib);
      RunPassesTrace(kinds[1..], Step(kinds[0], acc, lib), lib);
      SumsShift(p, rest, 0);
      Assoc(acc.required, p.required, RequiredsFrom(rest, 0));
      Assoc(acc.provided, p.provided, ProvidedsFrom(rest, 0));
    }
  }

  /** The sums over eleven pass results of which only the first, third and
      tenth require anything and only the second, third and fourth
      provide anything. */
  lemma SumsOfEleven(t: seq<PassResult>)
    requires |t| == 11
    requires t[1].required == [] && t[3].required == [] && t[4].required == []
             && t[5].required == [] && t[6].required == [] && t[7].required == []
             && t[8].required == [] && t[10].required == []
    requires t[0].provided == [] && t[4].provided == [] && t[5].provided == []
             && t[6].provided == [] && t[7].provided == [] && t[8].provided == []
             && t[9].provided == [] && t[10].provided == []
    ensures RequiredsFrom(t, 0) == t[0].required + t[2].required + t[9].required
    ensures ProvidedsFrom(t, 0) == t[1].provided + t[2].provided + t[3].provided
  {
    assert RequiredsFrom(t, 11) == [] && ProvidedsFrom(t, 11) == [];
    assert RequiredsFrom(t, 10) == [] && ProvidedsFrom(t, 10) == [];
    assert RequiredsFrom(t, 9) == t[9].required && ProvidedsFrom(t, 9) == [];
    assert RequiredsFrom(t, 8) == t[9].required && ProvidedsFrom(t, 8) == [];
    assert RequiredsFrom(t, 7) == t[9].required && ProvidedsFrom(t, 7) == [];
    assert RequiredsFrom(t, 6) == t[9].required && ProvidedsFrom(t, 6) == [];
    assert RequiredsFrom(t, 5) == t[9].required && ProvidedsFrom(t, 5) == [];
    assert RequiredsFrom(t, 4) == t[9].required && ProvidedsFrom(t, 4) == [];
    assert RequiredsFrom(t, 3) == t[9].required && ProvidedsFrom(t, 3) == t[3].provided;
    assert RequiredsFrom(t, 2) == t[2].required + t[9].required;
    assert ProvidedsFrom(t, 2) == t[2].provided + t[3].provided;
    assert RequiredsFrom(t, 1) == t[2].required + t[9].required;
    Assoc(t[1].provided, t[2].provided, t[3].provided);
    Assoc(t[0].required, t[2].required, t[9].required);
  }

  /** Eleven pass results, each contributing what its pass in `PassOrder`
      may contribute: the requires are the first one's `use` packages, the
      third one's architecture entities, the tenth one's instances; the
      provides are the second one's entities, the third one's
      architectures and the fourth one's packages. */
  lemma TraceParts(t: seq<PassResult>, lib: string)
    requires |t| == 11
    requires PassContributes(UsePass, lib, t[0].provided, t[0].required, t[0].libraries)
    requires PassContributes(EntityPass, lib, t[1].provided, t[1].required, t[1].libraries)
    requires PassContributes(ArchitecturePass, lib, t[2].provided, t[2].required, t[2].libraries)
    requires PassContributes(PackagePass, lib, t[3].provided, t[3].required, t[3].libraries)
    requires PassContributes(ComponentPass, lib, t[4].provided, t[4].required, t[4].libraries)
    requires PassContributes(SignalPass, lib, t[5].provided, t[5].required, t[5].libraries)
    requires PassContributes(ConstantPass, lib, t[6].provided, t[6].required, t[6].libraries)
    requires PassContributes(RecordPass, lib, t[7].provided, t[7].required, t[7].libraries)
    requires PassContributes(FunctionPass, lib, t[8].provided, t[8].required, t[8].libraries)
    requires PassContributes(InstancePass, lib, t[9].provided, t[9].required, t[9].libraries)
    requires PassContributes(LibraryPass, lib, t[10].provided, t[10].required, t[10].libraries)
    ensures RequiredsFrom(t, 0) == t[0].required + t[2].required + t[9].required
    ensures ProvidedsFrom(t, 0) == t[1].provided + t[2].provided + t[3].provided
    ensures forall n :: 0 <= n < |t[0].required| ==> UseShaped(t[0].required[n], lib)
    ensures forall n :: 0 <= n < |t[1].provided| ==> t[1].provided[n].kind == Entity
    ensures |t[2].required| == |t[2].provided|
    ensures forall n :: 0 <= n < |t[2].provided| ==>
              t[2].provided[n].kind == Architecture
              && t[2].required[n] == Relation(t[2].provided[n].name, lib, Entity)
    ensures forall n :: 0 <= n < |t[3].provided| ==> t[3].provided[n].kind == Package
    ensures forall n :: 0 <= n < |t[9].required| ==> t[9].required[n].kind == Entity
  {
    SumsOfEleven(t);
  }

  /** `ScanParts` for any list of passes that is the scanner's order. */
  lemma PassesParts(kinds: seq<PassKind>, ts: Lexemes, lib: string)
    requires |kinds| == 11
    requires kinds[0] == UsePass && kinds[1] == EntityPass && kinds[2] == ArchitecturePass
             && kinds[3] == PackagePass && kinds[4] == ComponentPass && kinds[5] == SignalPass
             && kinds[6] == ConstantPass && kinds[7] == RecordPass && kinds[8] == FunctionPass
             && kinds[9] == InstancePass && kinds[10] == LibraryPass
    ensures var t := Trace(kinds, ts, lib);
            var s := RunPasses(kinds, ScanResult(ts, [], [], {lib}), lib);
            s.required == t[0].required + t[2].required + t[9].required
            && s.provided == t[1].provided + t[2].provided + t[3].provided
            && (forall n :: 0 <= n < |t[0].required| ==> UseShaped(t[0].required[n], lib))
            && (forall n :: 0 <= n < |t[1].provided| ==> t[1].provided[n].kind == Entity)
            && |t[2].required| == |t[2].provided|
            && (forall n :: 0 <= n < |t[2].provided| ==>
                  t[2].provided[n].kind == Architecture
                  && t[2].required[n] == Relation(t[2].provided[n].name, lib, Entity))
            && (forall n :: 0 <= n < |t[3].provided| ==> t[3].provided[n].kind == Package)
            && (forall n :: 0 <= n < |t[9].required| ==> t[9].required[n].kind == Entity)
  {
    RunPassesTrace(kinds, ScanResult(ts, [], [], {lib}), lib);
    TraceParts(Trace(kinds, ts, lib), lib);
  }

  /** Where every relation of a scan comes from, with `t` the results of
      the eleven passes in order (`t[0]` the `use` pass, `t[1]` entities,
      `t[2]` architectures, `t[3]` packages, `t[9]` instances). The
      requires are the `use` clauses' packages, then one entity per
      architecture, named and ordered as the architecture provides, then
      the instantiated entities; the provides are the entities, the
      architectures, the packages. */
  lemma ScanParts(ts: Lexemes, lib: string)
    ensures var t := Trace(PassOrder, ts, lib);
            Scan(ts, lib).required == t[0].required + t[2].required + t[9].required
            && Scan(ts, lib).provided == t[1].provided + t[2].provided + t[3].provided
            && (forall n :: 0 <= n < |t[0].required| ==> UseShaped(t[0].required[n], lib))
            && (forall n :: 0 <= n < |t[1].provided| ==> t[1].provided[n].kind == Entity)
            && |t[2].required| == |t[2].provided|
            && (forall n :: 0 <= n < |t[2].provided| ==>
                  t[2].provided[n].kind == Architecture
                  && t[2].required[n] == Relation(t[2].provided[n].name, lib, Entity))
            && (forall n :: 0 <= n < |t[3].provided| ==> t[3].provided[n].kind == Package)
            && (forall n :: 0 <= n < |t[9].required| ==> t[9].required[n].kind == Entity)
  {
    PassesParts(PassOrder, ts, lib);
  }

  lemma PassOrderSorted()
    ensures RanksSorted(PassOrder)
  {
    var o := PassOrder;
    forall i | 0 <= i < |o| - 1 ensures RanksStep(o[i], o[i + 1]) {
      if i < 5 {
        assert i == 0 || i == 1 || i == 2 || i == 3 || i == 4;
      } else {
        assert i == 5 || i == 6 || i == 7 || i == 8 || i == 9;
      }
    }
    RanksSortedByNeighbours(o);
  }

  /** Neither rank goes down from `a` to `b`. */
  predicate RanksStep(a: PassKind, b: PassKind) {
    PassProvideRank(a) <= PassProvideRank(b) && PassRequireRank(a) <= PassRequireRank(b)
  }

  /** Ranks sorted between every pair of neighbours are sorted. */
  lemma {:induction false} RanksSortedByNeighbours(kinds: seq<PassKind>)
    requires forall i :: 0 <= i < |kinds| - 1 ==> RanksStep(kinds[i], kinds[i + 1])
    ensures RanksSorted(kinds)
  {
    if |kinds| > 1 {
      assert RanksStep(kinds[0], kinds[1]);
      forall i | 0 <= i < |kinds[1..]| - 1 ensures RanksStep(kinds[1..][i], kinds[1..][i + 1]) {
        assert RanksStep(kinds[i + 1], kinds[i + 2]);
      }
      RanksSortedByNeighbours(kinds[1..]);
    }
  }

  // ---------------------------------------------------------------------
  // Comments and short strings

  /** A line comment never matters: the file parses exactly as if the
      comment were not there. */
  lemma ParseIgnoresLineComment(f: DepFile, x: string, c: string, y: string)
    requires Comments.CleanEnd(x)
    requires '\n' !in c
    requires y == [] || y[0] == '\n'
    ensures Parse(f, x + "--" + c + y) == Parse(f, x + y)
  {
    Comments.CommentInvisible(x, c, y);
  }

  /** Nor does a quoted string of one character. */
  lemma ParseIgnoresCharLiteral(f: DepFile, x: string, ch: char, y: string)
    requires Comments.Plain(x)
    ensures Parse(f, x + ['"', ch, '"'] + y) == Parse(f, x + y)
  {
    Comments.OneCharStringInvisible(x, ch, y);
  }

  /** Passes over an empty buffer change nothing. */
  lemma {:induction false} RunPassesEmpty(kinds: seq<PassKind>, acc: ScanResult, lib: string)
    requires acc.buffer == []
    ensures RunPasses(kinds, acc, lib) == acc
  {
    if |kinds| > 0 {
      var p := Run(kinds[0], acc.buffer, lib);
      assert p == PassResult([], [], [], {});
      assert acc.provided + [] == acc.provided && acc.required + [] == acc.required;
      assert acc.libraries + {} == acc.libraries;
      RunPassesEmpty(kinds[1..], acc, lib);
    }
  }

  /** A file that is one line comment (say `-- use work.pkg;`) parses to no
      relation at all. */
  lemma CommentOnlyFile(f: DepFile, c: string)
    requires !f.isParsed
    requires '\n' !in c
    ensures Parse(f, "--" + c) == Ok(f.(isParsed := true))
  {
    Comments.CommentInvisible("", c, "");
    assert "" + "--" + c + "" == "--" + c;
    assert Comments.Strip("") == "";
    assert Lex("") == [];
    RunPassesEmpty(PassOrder, ScanResult([], [], [], {f.library}), f.library);
    assert f.provided + [] == f.provided && f.required + [] == f.required;
  }
}

=== FILE: scanner_examples.dfy ===
/** Single constructs run through the scanner's passes: which relation each
    produces, in which library, and what an earlier pass hides from a later
    one. Names and keywords are left open, so each lemma speaks for every
    spelling of them (keywords in any letter case). */
module ScannerExamples {
  import opened DepFiles
  import opened Lexer
  import opened Passes
  import opened Outcomes
  import opened Strings

  /** A word that starts its line, a word after whitespace, a word glued to
      what precedes it, and punctuation glued to what precedes it. */
  function Bol(w: string): Lexeme { Lexeme(Word(w), true, true) }
  function W(w: string): Lexeme { Lexeme(Word(w), false, true) }
  function Glued(w: string): Lexeme { Lexeme(Word(w), false, false) }
  function P(c: char): Lexeme { Lexeme(Punct(c), false, false) }

  /** `use L.N` at the start of a line is one use clause spanning all four
      lexemes. */
  lemma UseClauseMatches(lib: string, kw: string, l: string, n: string)
    requires EqCI(kw, "use")
    ensures MatchUse([Bol(kw), W(l), P('.'), Glued(n)], 0, lib)
            == Some(Match(4, [], [UseRelation(l, n, lib)], {}))
  {
    assert KeywordAt([Bol(kw), W(l), P('.'), Glued(n)], 0, "use");
  }

  /** `use L.N` where `L` is `work` in any case: the package name is
      lower-cased and the library is the file's own. */
  lemma UseWorkIsFileLibrary(lib: string, kw: string, l: string, n: string)
    requires EqCI(kw, "use") && EqCI(l, "work")
    ensures Run(UsePass, [Bol(kw), W(l), P('.'), Glued(n)], lib).required
            == [Relation(Lower(n), lib, Package)]
  {
    UseClauseMatches(lib, kw, l, n);
    RunSingleMatch(UsePass, [Bol(kw), W(l), P('.'), Glued(n)], lib,
                   Match(4, [], [UseRelation(l, n, lib)], {}));
    assert UseRelation(l, n, lib) == Relation(Lower(n), lib, Package);
  }

  /** `use L.N` with any other library: both names are lower-cased. */
  lemma UseOtherLibraryLowered(lib: string, kw: string, l: string, n: string)
    requires EqCI(kw, "use") && !EqCI(l, "work")
    ensures Run(UsePass, [Bol(kw), W(l), P('.'), Glued(n)], lib).required
            == [Relation(Lower(n), Lower(l), Package)]
  {
    UseClauseMatches(lib, kw, l, n);
    RunSingleMatch(UsePass, [Bol(kw), W(l), P('.'), Glued(n)], lib,
                   Match(4, [], [UseRelation(l, n, lib)], {}));
    assert UseRelation(l, n, lib) == Relation(Lower(n), Lower(l), Package);
  }

  /** `use` that does not start its line is not a use clause. */
  lemma UseMustStartLine(lib: string, kw: string, l: string, n: string)
    ensures Run(UsePass, [W(kw), W(l), P('.'), Glued(n)], lib).required == []
  {
    var ts := [W(kw), W(l), P('.'), Glued(n)];
    assert RunFrom(UsePass, ts, lib, 4) == PassResult([], [], [], {});
    assert RunFrom(UsePass, ts, lib, 3).required == [];
    assert RunFrom(UsePass, ts, lib, 2).required == [];
    assert RunFrom(UsePass, ts, lib, 1).required == [];
  }

  /** `entity N is end N;` provides entity `N`, spelled as written, in the
      file's library. */
  lemma EntityHeaderProvides(lib: string, kwEntity: string, kwIs: string, kwEnd: string, n: string)
    requires EqCI(kwEntity, "entity") && EqCI(kwIs, "is") && EqCI(kwEnd, "end")
    ensures Run(EntityPass, EntityHeader(kwEntity, kwIs, kwEnd, n), lib).provided
            == [Relation(n, lib, Entity)]
  {
    EntityHeaderMatches(lib, kwEntity, kwIs, kwEnd, n);
    RunSingleMatch(EntityPass, EntityHeader(kwEntity, kwIs, kwEnd, n), lib,
                   Match(6, [Relation(n, lib, Entity)], [], {}));
  }

  function EntityHeader(kwEntity: string, kwIs: string, kwEnd: string, n: string): seq<Lexeme> {
    [Bol(kwEntity), W(n), W(kwIs), W(kwEnd), W(n), P(';')]
  }

  /** The header is one match of the entity pattern, closed by the second
      `N`. */
  lemma EntityHeaderMatches(lib: string, kwEntity: string, kwIs: string, kwEnd: string, n: string)
    requires EqCI(kwEntity, "entity") && EqCI(kwIs, "is") && EqCI(kwEnd, "end")
    ensures MatchAt(EntityPass, EntityHeader(kwEntity, kwIs, kwEnd, n), 0, lib)
            == Some(Match(6, [Relation(n, lib, Entity)], [], {}))
  {
    var ts := EntityHeader(kwEntity, kwIs, kwEnd, n);
    assert KeywordAt(ts, 0, "entity") && KeywordAt(ts, 2, "is");
    assert IsWordAt(ts, 1) && WordAt(ts, 1) == n;
    assert PrefixAt(ts, 3, "end") by { EqCIAffixes(kwEnd, "end"); }
    EntityHeaderCloses(kwEntity, kwIs, kwEnd, n);
    assert MatchEntity(ts, 0, lib) == Some(Match(6, [Relation(n, lib, Entity)], [], {}));
  }

  /** The search for the terminator stops at the second `N`. */
  lemma EntityHeaderCloses(kwEntity: string, kwIs: string, kwEnd: string, n: string)
    ensures Find(EntityHeader(kwEntity, kwIs, kwEnd, n), 4, Terminator(n)) == Some(4)
  {
    var ts := EntityHeader(kwEntity, kwIs, kwEnd, n);
    EqCIAffixes(n, Lower(n));
    assert ProbeAt(ts, 4, Terminator(n));
  }

  /** `package N is` provides package `N`, spelled as written, in the
      file's library. */
  lemma PackageHeaderProvides(lib: string, kwPackage: string, kwIs: string, n: string)
    requires EqCI(kwPackage, "package") && EqCI(kwIs, "is")
    ensures Run(PackagePass, [Bol(kwPackage), W(n), W(kwIs)], lib).provided
            == [Relation(n, lib, Package)]
  {
    PackageHeaderMatches(lib, kwPackage, kwIs, n);
    RunSingleMatch(PackagePass, [Bol(kwPackage), W(n), W(kwIs)], lib,
                   Match(3, [Relation(n, lib, Package)], [], {}));
  }

  /** The header is one match of the package pattern. */
  lemma PackageHeaderMatches(lib: string, kwPackage: string, kwIs: string, n: string)
    requires EqCI(kwPackage, "package") && EqCI(kwIs, "is")
    ensures MatchPackage([Bol(kwPackage), W(n), W(kwIs)], 0, lib)
            == Some(Match(3, [Relation(n, lib, Package)], [], {}))
  {
    var ts := [Bol(kwPackage), W(n), W(kwIs)];
    assert KeywordAt(ts, 0, "package") && IsWordAt(ts, 1);
    assert PrefixAt(ts, 2, "is") by { EqCIAffixes(kwIs, "is"); }
  }

  /** `architecture A of E is` provides an architecture of `E` and requires
      the entity `E`, both in the file's library. */
  lemma ArchitectureKeyedOnEntity(lib: string, kwArch: string, kwOf: string, kwIs: string,
                                  a: string, e: string)
    requires EqCI(kwArch, "architecture") && EqCI(kwOf, "of") && EqCI(kwIs, "is")
    ensures var r := Run(ArchitecturePass, [Bol(kwArch), W(a), W(kwOf), W(e), W(kwIs)], lib);
            r.provided == [Relation(e, lib, Architecture)]
            && r.required == [Relation(e, lib, Entity)]
  {
    var ts := [Bol(kwArch), W(a), W(kwOf), W(e), W(kwIs)];
    EqCIAffixes(kwIs, "is");
    assert MatchAt(ArchitecturePass, ts, 0, lib)
           == Some(Match(5, [Relation(e, lib, Architecture)], [Relation(e, lib, Entity)], {}));
    assert RunFrom(ArchitecturePass, ts, lib, 5) == PassResult([], [], [], {});
  }

  /** `U : entity L.E port map`: the library is kept as written unless it
      is exactly `work` (this comparison is case-sensitive), which means
      the file's library. */
  lemma InstanceWithLibrary(lib: string, kwEntity: string, kwPort: string, kwMap: string,
                            u: string, l: string, e: string)
    requires EqCI(kwEntity, "entity") && EqCI(kwPort, "port") && EqCI(kwMap, "map")
    ensures Run(InstancePass, [Bol(u), P(':'), W(kwEntity), W(l), P('.'), Glued(e),
                               W(kwPort), W(kwMap)], lib).required
            == [Relation(e, if l == "work" then lib else l, Entity)]
  {
    var ts := [Bol(u), P(':'), W(kwEntity), W(l), P('.'), Glued(e), W(kwPort), W(kwMap)];
    EqCIAffixes(kwMap, "map");
    assert MapAt(ts, 6) == Some(8);
    assert InstanceTail(ts, 5) == Some(8);
    assert MatchAt(InstancePass, ts, 0, lib)
           == Some(Match(8, [], [Relation(e, if l == "work" then lib else l, Entity)], {}));
    assert RunFrom(InstancePass, ts, lib, 8) == PassResult([], [], [], {});
  }

  /** `U : E generic map`: no library prefix means the file's library. */
  lemma InstanceWithoutLibrary(lib: string, kwGeneric: string, kwMap: string, u: string, e: string)
    requires EqCI(kwGeneric, "generic") && EqCI(kwMap, "map")
    ensures Run(InstancePass, [Bol(u), P(':'), W(e), W(kwGeneric), W(kwMap)], lib).required
            == [Relation(e, lib, Entity)]
  {
    var ts := [Bol(u), P(':'), W(e), W(kwGeneric), W(kwMap)];
    EqCIAffixes(kwMap, "map");
    assert MapAt(ts, 3) == Some(5);
    assert InstanceTail(ts, 2) == Some(5);
    assert MatchAt(InstancePass, ts, 0, lib) == Some(Match(5, [], [Relation(e, lib, Entity)], {}));
    assert RunFrom(InstancePass, ts, lib, 5) == PassResult([], [], [], {});
  }

  /** `component C` / `U : E port map;` / `end component;` */
  function ComponentDeclaration(kwComp: string, kwPort: string, kwMap: string, kwEnd: string,
                                c: string, u: string, e: string): seq<Lexeme>
  {
    [Bol(kwComp), W(c),
     Bol(u), P(':'), W(e), W(kwPort), W(kwMap), P(';'),
     Bol(kwEnd), W(kwComp), P(';')]
  }

  /** A component declaration whose body holds an instantiation-shaped
      line: run alone, the instance pass would require `E`, but the
      component pass runs first and leaves only its marker, on which the
      instance pass finds nothing. */
  lemma ComponentHidesInstance(lib: string, kwComp: string, kwPort: string, kwMap: string,
                               kwEnd: string, c: string, u: string, e: string)
    requires EqCI(kwComp, "component") && EqCI(kwPort, "port") && EqCI(kwMap, "map")
    requires EqCI(kwEnd, "end")
    ensures var ts := ComponentDeclaration(kwComp, kwPort, kwMap, kwEnd, c, u, e);
            && Run(InstancePass, ts, lib).required == [Relation(e, lib, Entity)]
            && Run(ComponentPass, ts, lib).out == [Lexeme(Marker("component"), true, true)]
            && Run(InstancePass, Run(ComponentPass, ts, lib).out, lib).required == []
  {
    ComponentPassOnDeclaration(lib, kwComp, kwPort, kwMap, kwEnd, c, u, e);
    InstancePassOnDeclaration(lib, kwComp, kwPort, kwMap, kwEnd, c, u, e);
    var marked := [Lexeme(Marker("component"), true, true)];
    assert RunFrom(InstancePass, marked, lib, 1) == PassResult([], [], [], {});
  }

  /** The component pass consumes the whole declaration. */
  lemma ComponentPassOnDeclaration(lib: string, kwComp: string, kwPort: string, kwMap: string,
                                   kwEnd: string, c: string, u: string, e: string)
    requires EqCI(kwComp, "component") && EqCI(kwPort, "port") && EqCI(kwMap, "map")
    requires EqCI(kwEnd, "end")
    ensures Run(ComponentPass, ComponentDeclaration(kwComp, kwPort, kwMap, kwEnd, c, u, e), lib).out
            == [Lexeme(Marker("component"), true, true)]
  {
    var ts := ComponentDeclaration(kwComp, kwPort, kwMap, kwEnd, c, u, e);
    ComponentDeclarationEnds(kwComp, kwPort, kwMap, kwEnd, c, u, e);
    assert MatchAt(ComponentPass, ts, 0, lib) == Some(Match(11, [], [], {}));
    assert RunFrom(ComponentPass, ts, lib, 11) == PassResult([], [], [], {});
  }

  /** The first `end component` pair of the declaration is its last line. */
  lemma ComponentDeclarationEnds(kwComp: string, kwPort: string, kwMap: string,
                                 kwEnd: string, c: string, u: string, e: string)
    requires EqCI(kwComp, "component") && EqCI(kwPort, "port") && EqCI(kwMap, "map")
    requires EqCI(kwEnd, "end")
    ensures var ts := ComponentDeclaration(kwComp, kwPort, kwMap, kwEnd, c, u, e);
            EndBlock(ts, 2, "component") == Some(11)
  {
    var ts := ComponentDeclaration(kwComp, kwPort, kwMap, kwEnd, c, u, e);
    ComponentBodyProbes(kwComp, kwPort, kwMap, kwEnd, c, u, e);
    assert Find(ts, 8, EndOf("component")) == Some(8);
    assert Find(ts, 2, EndOf("component")) == Some(8);
    assert Find(ts, 10, Semicolon) == Some(10);
  }

  /** Only the last line holds an `end component` pair. */
  lemma ComponentBodyProbes(kwComp: string, kwPort: string, kwMap: string,
                            kwEnd: string, c: string, u: string, e: string)
    requires EqCI(kwComp, "component") && EqCI(kwPort, "port") && EqCI(kwMap, "map")
    requires EqCI(kwEnd, "end")
    ensures var ts := ComponentDeclaration(kwComp, kwPort, kwMap, kwEnd, c, u, e);
            && (forall m :: 2 <= m < 8 ==> !ProbeAt(ts, m, EndOf("component")))
            && ProbeAt(ts, 8, EndOf("component"))
  {
    var ts := ComponentDeclaration(kwComp, kwPort, kwMap, kwEnd, c, u, e);
    EqCIAffixes(kwPort, "port");
    EqCIAffixes(kwMap, "map");
    assert !IsWordAt(ts, 3) && !IsWordAt(ts, 7);
    assert !PrefixAt(ts, 5, "component") && !PrefixAt(ts, 6, "component");
    forall m | 2 <= m < 8
      ensures !ProbeAt(ts, m, EndOf("component"))
    {
      assert !PrefixAt(ts, m + 1, "component") || !SuffixAt(ts, m, "end");
    }
    assert ProbeAt(ts, 8, EndOf("component")) by {
      EqCIAffixes(kwComp, "component");
      EqCIAffixes(kwEnd, "end");
    }
  }

  /** The instance pass alone finds the instantiation inside the
      declaration. */
  lemma InstancePassOnDeclaration(lib: string, kwComp: string, kwPort: string, kwMap: string,
                                  kwEnd: string, c: string, u: string, e: string)
    requires EqCI(kwPort, "port") && EqCI(kwMap, "map")
    ensures Run(InstancePass, ComponentDeclaration(kwComp, kwPort, kwMap, kwEnd, c, u, e), lib).required
            == [Relation(e, lib, Entity)]
  {
    var ts := ComponentDeclaration(kwComp, kwPort, kwMap, kwEnd, c, u, e);
    EqCIAffixes(kwMap, "map");
    assert MapAt(ts, 5) == Some(7);
    assert InstanceTail(ts, 4) == Some(7);
    assert MatchAt(InstancePass, ts, 2, lib) == Some(Match(7, [], [Relation(e, lib, Entity)], {}));
    assert RunFrom(InstancePass, ts, lib, 11) == PassResult([], [], [], {});
    assert RunFrom(InstancePass, ts, lib, 10).required == [];
    assert RunFrom(InstancePass, ts, lib, 9).required == [];
    assert RunFrom(InstancePass, ts, lib, 8).required == [];
    assert RunFrom(InstancePass, ts, lib, 7).required == [];
    assert RunFrom(InstancePass, ts, lib, 2).required == [Relation(e, lib, Entity)];
    assert RunFrom(InstancePass, ts, lib, 1).required == [Relation(e, lib, Entity)];
  }
}

=== FILE: strings.dfy ===
/** Character classes and string helpers with the meaning Python's `re`,
    `str.lower`, `str.upper`, `str.split` and `str.join` give them on ASCII
    text. */
module Strings {

  /** Whitespace as matched by `\s` and skipped by `str.split()` (ASCII part). */
  predicate IsSpace(c: char) {
    c == ' ' || c == '\t' || c == '\n' || c == '\r' || c == '\U{B}' || c == '\U{C}'
  }

  /** Characters matched by `\w` (ASCII part). */
  predicate IsWordChar(c: char) {
    ('a' <= c <= 'z') || ('A' <= c <= 'Z') || ('0' <= c <= '9') || c == '_'
  }

  function LowerChar(c: char): char {
    if 'A' <= c <= 'Z' then (c as int + 32) as char else c
  }

  function UpperChar(c: char): char {
    if 'a' <= c <= 'z' then (c as int - 32) as char else c
  }

  function Lower(s: string): (r: string)
    ensures |r| == |s|
    ensures forall i :: 0 <= i < |s| ==> r[i] == LowerChar(s[i])
  {
    if |s| == 0 then [] else [LowerChar(s[0])] + Lower(s[1..])
  }

  /** Lowering twice is lowering once. */
  lemma {:induction false} LowerIdempotent(s: string)
    ensures Lower(Lower(s)) == Lower(s)
  {
    if |s| > 0 {
      LowerIdempotent(s[1..]);
      assert Lower(s)[1..] == Lower(s[1..]);
    }
  }

  function Upper(s: string): (r: string)
    ensures |r| == |s|
    ensures forall i :: 0 <= i < |s| ==> r[i] == UpperChar(s[i])
  {
    if |s| == 0 then [] else [UpperChar(s[0])] + Upper(s[1..])
  }

  /** Equality under `re.IGNORECASE` with a pattern literal `lit` that is
      written in lower case. */
  predicate EqCI(a: string, lit: string) {
    Lower(a) == lit
  }

  predicate HasPrefix(s: string, p: string) {
    |p| <= |s| && s[..|p|] == p
  }

  /** `lit` (lower case) begins `s`, ignoring case. */
  predicate HasPrefixCI(s: string, lit: string) {
    |lit| <= |s| && Lower(s[..|lit|]) == lit
  }

  /** `lit` (lower case) ends `s`, ignoring case. */
  predicate HasSuffixCI(s: string, lit: string) {
    |lit| <= |s| && Lower(s[|s| - |lit|..]) == lit
  }

  /** A whole word equal to `lit` ignoring case also begins and ends with it. */
  lemma EqCIAffixes(s: string, lit: string)
    requires EqCI(s, lit)
    ensures |s| == |lit|
    ensures HasPrefixCI(s, lit) && HasSuffixCI(s, lit)
  {
    assert s[..|lit|] == s && s[|s| - |lit|..] == s;
  }

  function CountChar(s: string, c: char): nat {
    if |s| == 0 then 0 else (if s[0] == c then 1 else 0) + CountChar(s[1..], c)
  }

  /** `s.split(c)` for a one-character separator: empty parts are kept. */
  function Split(s: string, c: char): (r: seq<string>)
    ensures |r| == CountChar(s, c) + 1
    ensures forall k :: 0 <= k < |r| ==> c !in r[k]
  {
    if |s| == 0 then [""]
    else
      var rest := Split(s[1..], c);
      if s[0] == c then [""] + rest else [[s[0]] + rest[0]] + rest[1..]
  }

  /** `sep.join(parts)`. */
  function Join(parts: seq<string>, sep: string): string {
    if |parts| == 0 then ""
    else if |parts| == 1 then parts[0]
    else parts[0] + sep + Join(parts[1..], sep)
  }

  /** A join of two or more parts is the first part, the separator, then
      the join of the rest. */
  lemma JoinFirst(parts: seq<string>, sep: string)
    requires |parts| >= 2
    ensures HasPrefix(Join(parts, sep), parts[0] + sep)
    ensures Join(parts, sep)[|parts[0]| + |sep|..] == Join(parts[1..], sep)
  {
    var j := Join(parts, sep);
    assert j == (parts[0] + sep) + Join(parts[1..], sep);
  }

  /** After the first part and its separator, a join splits back into the
      other parts when none of them holds the separator. */
  lemma SplitAfterFirst(parts: seq<string>, c: char)
    requires |parts| >= 2
    ensures HasPrefix(Join(parts, [c]), parts[0] + [c])
    ensures (forall k :: 1 <= k < |parts| ==> c !in parts[k]) ==>
              Split(Join(parts, [c])[|parts[0]| + 1..], c) == parts[1..]
  {
    JoinFirst(parts, [c]);
    if forall k :: 1 <= k < |parts| ==> c !in parts[k] {
      SplitJoin(parts[1..], c);
    }
  }

  /** Joining the parts of a split with the same separator gives back the
      original string. */
  lemma {:induction false} JoinSplit(s: string, c: char)
    ensures Join(Split(s, c), [c]) == s
  {
    if |s| > 0 {
      var rest := Split(s[1..], c);
      JoinSplit(s[1..], c);
      if s[0] == c {
        assert Split(s, c) == [""] + rest;
        assert ([""] + rest)[1..] == rest;
      } else {
        var parts := [[s[0]] + rest[0]] + rest[1..];
        assert Split(s, c) == parts;
        if |rest| > 1 {
          assert parts[1..] == rest[1..];
          assert Join(rest, [c]) == rest[0] + [c] + Join(rest[1..], [c]);
        }
      }
      assert s == [s[0]] + s[1..];
    }
  }

  /** Splitting text whose first part holds no separator: that part is
      glued to the first part of the rest. */
  lemma {:induction false} SplitAfterPlain(x: string, y: string, c: char)
    requires c !in x
    ensures Split(x + y, c) == [x + Split(y, c)[0]] + Split(y, c)[1..]
  {
    if |x| > 0 {
      SplitAfterPlain(x[1..], y, c);
      assert (x + y)[0] == x[0] && (x + y)[1..] == x[1..] + y;
      assert [x[0]] + (x[1..] + Split(y, c)[0]) == x + Split(y, c)[0];
    } else {
      var r := Split(y, c);
      assert x + y == y && x + r[0] == r[0];
      assert r == [r[0]] + r[1..];
    }
  }

  /** Splitting the join of separator-free parts gives the parts back. */
  lemma {:induction false} SplitJoin(parts: seq<string>, c: char)
    requires |parts| >= 1
    requires forall k :: 0 <= k < |parts| ==> c !in parts[k]
    ensures Split(Join(parts, [c]), c) == parts
  {
    if |parts| == 1 {
      SplitAfterPlain(parts[0], "", c);
      assert parts[0] + "" == parts[0];
    } else {
      var j := Join(parts[1..], [c]);
      SplitJoin(parts[1..], c);
      assert Join(parts, [c]) == parts[0] + ([c] + j);
      SplitAfterPlain(parts[0], [c] + j, c);
      assert ([c] + j)[0] == c && ([c] + j)[1..] == j;
      assert Split([c] + j, c) == [""] + parts[1..];
      assert parts[0] + "" == parts[0];
      assert parts == [parts[0]] + parts[1..];
    }
  }

  /** Index of the first `c` in `s`, or `|s|` when there is none. */
  function FirstIndex(s: string, c: char): (k: nat)
    ensures k <= |s|
    ensures forall i :: 0 <= i < k ==> s[i] != c
    ensures k < |s| ==> s[k] == c
  {
    if |s| == 0 || s[0] == c then 0 else 1 + FirstIndex(s[1..], c)
  }

  /** The first part of a split runs up to the first separator; the other
      parts are the split of what follows it. */
  lemma {:induction false} SplitHead(s: string, c: char)
    ensures Split(s, c)[0] == s[..FirstIndex(s, c)]
    ensures FirstIndex(s, c) == |s| ==> |Split(s, c)| == 1
    ensures FirstIndex(s, c) < |s| ==> Split(s, c)[1..] == Split(s[FirstIndex(s, c) + 1..], c)
  {
    if |s| > 0 && s[0] != c {
      var r := Split(s[1..], c);
      SplitHead(s[1..], c);
      assert Split(s, c) == [[s[0]] + r[0]] + r[1..];
      assert [s[0]] + s[1..][..FirstIndex(s[1..], c)] == s[..FirstIndex(s, c)];
      if FirstIndex(s, c) < |s| {
        assert s[1..][FirstIndex(s[1..], c) + 1..] == s[FirstIndex(s, c) + 1..];
      }
    }
  }

  /** The first part of a split is `head` exactly when `s` begins with
      `head` followed by a separator or by nothing. */
  lemma SplitHeadIs(s: string, head: string, c: char)
    requires c !in head
    ensures Split(s, c)[0] == head <==> HasPrefix(s, head) && (|s| == |head| || s[|head|] == c)
  {
    SplitHead(s, c);
    var k := FirstIndex(s, c);
    if HasPrefix(s, head) && (|s| == |head| || s[|head|] == c) {
      assert forall i :: 0 <= i < |head| ==> s[i] == head[i] && s[i] != c;
      assert k == |head|;
    }
  }

  /** The split has a single part `head` exactly when `s` is `head`. */
  lemma SplitOnlyHead(s: string, head: string, c: char)
    requires c !in head
    ensures Split(s, c)[0] == head && |Split(s, c)| == 1 <==> s == head
  {
    SplitHead(s, c);
    SplitHeadIs(s, head, c);
    if s == head {
      assert FirstIndex(s, c) == |s|;
    }
  }

  /** The first two parts of a split are `a` and `b` exactly when `s`
      begins with `a`, a separator and `b`, followed by a separator or by
      nothing. */
  lemma SplitTwoHeads(s: string, a: string, b: string, c: char)
    requires c !in a && c !in b
    ensures var r := Split(s, c);
            var p := a + [c] + b;
            (r[0] == a && |r| >= 2 && r[1] == b) <==> HasPrefix(s, p) && (|s| == |p| || s[|p|] == c)
  {
    var r := Split(s, c);
    var k := FirstIndex(s, c);
    SplitHead(s, c);
    SplitHeadIs(s, a, c);
    PrefixThrough(s, a, b, c);
    if k < |s| {
      assert r[1] == Split(s[k + 1..], c)[0];
      SplitHeadIs(s[k + 1..], b, c);
    }
  }

  /** `s` begins with `a`, then `c`, then `b`, exactly when it begins with
      `a`, has `c` right after it, and goes on with `b`. */
  lemma PrefixThrough(s: string, a: string, b: string, c: char)
    ensures HasPrefix(s, a + [c] + b)
            <==> HasPrefix(s, a) && |a| < |s| && s[|a|] == c && HasPrefix(s[|a| + 1..], b)
  {
    var p := a + [c] + b;
    if HasPrefix(s, p) {
      assert s[..|a|] == p[..|a|] == a;
      assert s[|a|] == p[|a|];
      assert s[|a| + 1..][..|b|] == p[|a| + 1..] == b;
    }
    if HasPrefix(s, a) && |a| < |s| && s[|a|] == c && HasPrefix(s[|a| + 1..], b) {
      assert s[..|p|] == s[..|a|] + [s[|a|]] + s[|a| + 1..][..|b|];
    }
  }

  /** A non-empty run without whitespace splits into itself. */
  lemma SplitWsWord(s: string)
    requires |s| > 0 && forall i :: 0 <= i < |s| ==> !IsSpace(s[i])
    ensures SplitWs(s) == [s]
  {
    assert NonSpaceRun(s) == |s|;
    assert s[..|s|] == s && s[|s|..] == [];
  }

  /** Length of the longest prefix of `s` free of whitespace. */
  function NonSpaceRun(s: string): (k: nat)
    ensures k <= |s|
    ensures forall i :: 0 <= i < k ==> !IsSpace(s[i])
    ensures k < |s| ==> IsSpace(s[k])
  {
    if |s| == 0 || IsSpace(s[0]) then 0 else 1 + NonSpaceRun(s[1..])
  }

  /** `s.split()` with no argument: runs of whitespace separate the parts
      and no part is empty. */
  function SplitWs(s: string): (r: seq<string>)
    ensures forall k :: 0 <= k < |r| ==> |r[k]| > 0
    ensures forall k, i :: 0 <= k < |r| && 0 <= i < |r[k]| ==> !IsSpace(r[k][i])
    decreases |s|
  {
    if |s| == 0 then []
    else if IsSpace(s[0]) then SplitWs(s[1..])
    else
      var k := NonSpaceRun(s);
      [s[..k]] + SplitWs(s[k..])
  }
}

=== FILE: xilinx.dfy ===
/** The Xilinx (Vivado) synthesis back end: the property list a project is
    created with, how each property is routed to the project, synthesis or
    implementation script, and how its TCL line is written. */
module Xilinx {
  import opened Strings
  import opened Outcomes

  // ---------------------------------------------------------------------
  // The property list

  /** The manifest keys the property list reads; `None` is a key that is
      absent or set to `None`. A property is a list of strings. */
  datatype Manifest = Manifest(
    synProperties: Option<seq<seq<string>>>,
    language: Option<string>,
    fetchto: Option<string>)

  const DefaultLanguage := "vhdl"
  const PartValue := "$(SYN_DEVICE)$(SYN_PACKAGE)$(SYN_GRADE)"
  const TopObject := "get_property srcset [current_run]"

  /** The three properties every project is created with; the target
      language falls back to VHDL. */
  function BuiltIns(language: Option<string>): seq<seq<string>> {
    [["part", PartValue, "current_project"],
     ["target_language", if language.None? then DefaultLanguage else language.value, "current_project"],
     ["top", "$(TOP_MODULE)", TopObject]]
  }

  /** The property that points the IP repository at the fetch directory. */
  function RepoRow(fetchto: string): seq<string> {
    ["ip_repo_paths", fetchto, "current_fileset"]
  }

  /** `_get_properties`: the built-in properties, then the IP repository
      when a fetch directory is set (even an empty one), then the user's
      properties in their order. */
  function GetProperties(m: Manifest): (r: seq<seq<string>>)
    ensures |r| >= 3 && r[..3] == BuiltIns(m.language)
    ensures m.fetchto.Some? ==> |r| >= 4 && r[3] == RepoRow(m.fetchto.value)
    ensures var n := if m.fetchto.Some? then 4 else 3;
            && |r| >= n
            && r[n..] == (if m.synProperties.Some? then m.synProperties.value else [])
  {
    var withRepo := if m.fetchto.Some? then BuiltIns(m.language) + [RepoRow(m.fetchto.value)]
                    else BuiltIns(m.language);
    var user := if m.synProperties.Some? then m.synProperties.value else [];
    assert (withRepo + user)[|withRepo|..] == user;
    assert (withRepo + user)[..3] == BuiltIns(m.language);
    withRepo + user
  }

  // ---------------------------------------------------------------------
  // TCL lines

  /** A `set_property` command before it is written out: the property's
      name and value and the object it is set on. */
  datatype SetProperty = SetProperty(name: string, value: string, obj: string)

  /** `set_property "N" "V" [O]` */
  function PlainLine(p: SetProperty): string {
    "set_property \"" + p.name + "\" \"" + p.value + "\" [" + p.obj + "]"
  }

  /** `set_property -name {N} -value {V} -objects [O]` */
  function OptionLine(p: SetProperty): string {
    "set_property -name {" + p.name + "} -value {" + p.value + "} -objects [" + p.obj + "]"
  }

  /** A name of two whitespace-separated words, the second `options`. */
  predicate IsOptionsName(name: string) {
    var words := SplitWs(name);
    |words| == 2 && words[1] == "options"
  }

  /** The line a property is written as: the options form for
      `… options` names, the plain form otherwise (other two-word names
      are only reported). */
  function Render(p: SetProperty): string {
    if IsOptionsName(p.name) then OptionLine(p) else PlainLine(p)
  }

  /** The lines of one section: its header, then each property rendered. */
  function Section(header: string, props: seq<SetProperty>): (r: seq<string>)
    ensures |r| == |props| + 1 && r[0] == header
    ensures forall k :: 0 <= k < |props| ==> r[k + 1] == Render(props[k])
  {
    if |props| == 0 then [header]
    else Section(header, props[..|props| - 1]) + [Render(props[|props| - 1])]
  }

  // ---------------------------------------------------------------------
  // Routing

  datatype Target = Project | Synthesize | Par

  /** Where a property went: skipped (too short), dropped with a logged
      error (too long), or set on an object in one script. */
  datatype Routed = Skip | Drop | Line(target: Target, command: SetProperty)

  datatype XilinxError = IndexError(prop: seq<string>)

  const Steps := "steps"
  const SynthDesign := "synth_design"

  /** `s` begins with `head`, followed by a dot or by nothing. */
  predicate DottedPrefix(s: string, head: string) {
    HasPrefix(s, head) && (|s| == |head| || s[|head|] == '.')
  }

  /** Where a two-element property goes, read off the first word of its
      name: `steps.synth_design…` to synthesis, any other `steps.…` to
      implementation, anything else to the project. */
  function TargetOf(word: string): Target {
    if !DottedPrefix(word, Steps) then Project
    else if DottedPrefix(word, Steps + "." + SynthDesign) then Synthesize
    else Par
  }

  /** The object a two-element property is set on. */
  function RunObject(t: Target): string {
    match t
    case Project => "current_project"
    case Synthesize => "get_runs synth_1"
    case Par => "get_runs impl_1"
  }

  /** A two-element property: the first word of its name is split at dots;
      a first component `steps` names a run by the second component. A
      name without words, or whose first word is `steps` alone, has no
      such component and fails on the missing list index. */
  function ClassifyPair(prop: seq<string>): (r: Result<Routed, XilinxError>)
    requires |prop| == 2
    ensures r.Err? <==> SplitWs(prop[0]) == [] || SplitWs(prop[0])[0] == Steps
    ensures r.Ok? ==> var t := TargetOf(SplitWs(prop[0])[0]);
                      r.value == Line(t, SetProperty(prop[0], prop[1], RunObject(t)))
  {
    var words := SplitWs(prop[0]);
    if |words| == 0 then Err(IndexError(prop))
    else
      var hierarchy := Split(words[0], '.');
      StepsRouting(words[0]);
      if hierarchy[0] == Steps then
        if |hierarchy| < 2 then Err(IndexError(prop))
        else if hierarchy[1] == SynthDesign then
          Ok(Line(Synthesize, SetProperty(prop[0], prop[1], "get_runs synth_1")))
        else Ok(Line(Par, SetProperty(prop[0], prop[1], "get_runs impl_1")))
      else Ok(Line(Project, SetProperty(prop[0], prop[1], "current_project")))
  }

  /** One property, classified by its length as the routing loop does. */
  function Classify(prop: seq<string>): (r: Result<Routed, XilinxError>)
    ensures |prop| <= 1 ==> r == Ok(Skip)
    ensures |prop| > 3 ==> r == Ok(Drop)
    ensures |prop| == 3 ==> r == Ok(Line(Project, SetProperty(prop[0], prop[1], prop[2])))
    ensures |prop| == 2 ==> r == ClassifyPair(prop)
  {
    if |prop| <= 1 then Ok(Skip)
    else if |prop| == 2 then ClassifyPair(prop)
    else if |prop| == 3 then Ok(Line(Project, SetProperty(prop[0], prop[1], prop[2])))
    else Ok(Drop)
  }

  /** The dotted components of a word, as the loop reads them, agree with
      the prefix reading of `TargetOf`. */
  lemma StepsRouting(w: string)
    ensures Split(w, '.')[0] == Steps <==> DottedPrefix(w, Steps)
    ensures Split(w, '.')[0] == Steps && |Split(w, '.')| < 2 <==> w == Steps
    ensures Split(w, '.')[0] == Steps && |Split(w, '.')| >= 2 ==>
              (Split(w, '.')[1] == SynthDesign <==> DottedPrefix(w, Steps + "." + SynthDesign))
  {
    assert '.' !in Steps && '.' !in SynthDesign;
    SplitHeadIs(w, Steps, '.');
    SplitOnlyHead(w, Steps, '.');
    SplitTwoHeads(w, Steps, SynthDesign, '.');
    assert Steps + "." + SynthDesign == Steps + ['.'] + SynthDesign;
  }

  // ---------------------------------------------------------------------
  // The three lists

  /** Every property of `props` is classified without error. */
  predicate AllClassified(props: seq<seq<string>>) {
    forall k :: 0 <= k < |props| ==> Classify(props[k]).Ok?
  }

  /** The commands routed to `t`, in property order. */
  function RoutedTo(props: seq<seq<string>>, t: Target): seq<SetProperty>
    requires AllClassified(props)
  {
    if |props| == 0 then []
    else RoutedTo(props[..|props| - 1], t) + CommandFor(Classify(props[|props| - 1]).value, t)
  }

  /** The command a routed property adds to the list of `t`. */
  function CommandFor(c: Routed, t: Target): seq<SetProperty> {
    if c.Line? && c.target == t then [c.command] else []
  }

  datatype Lists = Lists(project: seq<SetProperty>, synthesize: seq<SetProperty>, par: seq<SetProperty>)

  /** Adds a routed property to the list it was routed to. */
  function Add(l: Lists, c: Routed): (r: Lists)
    ensures r == Lists(l.project + CommandFor(c, Project), l.synthesize + CommandFor(c, Synthesize),
                       l.par + CommandFor(c, Par))
  {
    if !c.Line? then l
    else match c.target
      case Project => l.(project := l.project + [c.command])
      case Synthesize => l.(synthesize := l.synthesize + [c.command])
      case Par => l.(par := l.par + [c.command])
  }

  /** The routing loop: each list receives the commands routed to it in
      property order; the first property that fails stops the loop with
      its error. */
  method RouteProperties(props: seq<seq<string>>) returns (r: Result<Lists, XilinxError>)
    ensures r.Ok? <==> AllClassified(props)
    ensures r.Ok? ==> r.value == Lists(RoutedTo(props, Project), RoutedTo(props, Synthesize),
                                       RoutedTo(props, Par))
    ensures r.Err? ==> exists k :: 0 <= k < |props| && Classify(props[k]) == Err(r.error)
                          && AllClassified(props[..k])
  {
    var lists := Lists([], [], []);
    var i := 0;
    while i < |props|
      invariant 0 <= i <= |props|
      invariant AllClassified(props[..i])
      invariant lists == Lists(RoutedTo(props[..i], Project), RoutedTo(props[..i], Synthesize),
                               RoutedTo(props[..i], Par))
    {
      var c := Classify(props[i]);
      if c.Err? {
        return Err(c.error);
      }
      RoutedToSnoc(props, i);
      lists := Add(lists, c.value);
      i := i + 1;
    }
    assert props[..i] == props;
    r := Ok(lists);
  }

  /** One more property extends each list by its command, if any. */
  lemma RoutedToSnoc(props: seq<seq<string>>, i: nat)
    requires i < |props| && AllClassified(props[..i]) && Classify(props[i]).Ok?
    ensures AllClassified(props[..i + 1])
    ensures forall t :: RoutedTo(props[..i + 1], t)
                        == RoutedTo(props[..i], t) + CommandFor(Classify(props[i]).value, t)
  {
    assert props[..i + 1][..i] == props[..i];
  }

  // ---------------------------------------------------------------------
  // The scripts

  /** The project control after its `{0}` is filled in. */
  function ProjectScript(lines: string): string {
    "$(TCL_CREATE)\n" + lines + ProjectTail
  }

  /** What the project control writes after the property lines. */
  const ProjectTail :=
    "\nsource files.tcl\n"
    + "set_property include_dirs {$(INCLUDE_DIRS)} [current_fileset]\n"
    + "update_compile_order -fileset sources_1\n"
    + "report_ip_status\n"
    + "upgrade_ip [get_ips {$(IP_CORES)}] -log ip_upgrade.log\n"
    + "export_ip_user_files -of_objects [get_ips {$(IP_CORES)}] -no_script -sync -force -quiet\n"
    + "update_compile_order -fileset sources_1\n"
    + "update_compile_order -fileset sim_1\n"
    + "$(TCL_CLOSE)"

  /** The run control filled in with a run name and the run's property
      lines: reset, launch and wait for the run, and exit with status 1
      unless its status ends in `Complete!`. */
  function RunScript(run: string, lines: string): string {
    "$(TCL_OPEN)\n" + lines + "\nreset_run " + run + "\nlaunch_runs " + run
    + "\nwait_on_run " + run + "\nset result [get_property STATUS [get_runs " + run + "]]" + RunTail
  }

  /** What the run control writes after reading the run's status. */
  const RunTail :=
    "\nset keyword [lindex [split '$$'result \" \"] end]\n"
    + "if { '$$'keyword != \\\"Complete!\\\" } {\n    exit 1\n}\n$(TCL_CLOSE)"

  const ProjectHeader := "# project properties"
  const SynthesizeHeader := "# synthesize properties"
  const ParHeader := "# par properties"

  datatype Scripts = Scripts(project: string, synthesize: string, par: string)

  /** The three controls filled in from routed lists. */
  function Fill(l: Lists): Scripts {
    Scripts(
      ProjectScript(Join(Section(ProjectHeader, l.project), "\n")),
      RunScript("synth_1", Join(Section(SynthesizeHeader, l.synthesize), "\n")),
      RunScript("impl_1", Join(Section(ParHeader, l.par), "\n")))
  }

  /** `_makefile_syn_tcl`: every property of the manifest's list routed,
      each list's lines joined by line breaks and placed in the project
      control and in the synthesis (`synth_1`) and implementation
      (`impl_1`) run controls; the first property that fails fails the
      whole with its error. */
  method SynTcl(m: Manifest) returns (r: Result<Scripts, XilinxError>)
    ensures r.Ok? <==> AllClassified(GetProperties(m))
    ensures r.Ok? ==>
              var props := GetProperties(m);
              r.value == Fill(Lists(RoutedTo(props, Project), RoutedTo(props, Synthesize),
                                    RoutedTo(props, Par)))
    ensures r.Err? ==>
              var props := GetProperties(m);
              exists k :: 0 <= k < |props| && Classify(props[k]) == Err(r.error)
                          && AllClassified(props[..k])
  {
    var props := GetProperties(m);
    var lists := RouteProperties(props);
    if lists.Err? {
      return Err(lists.error);
    }
    r := Ok(Fill(lists.value));
  }

  // ---------------------------------------------------------------------
  // Properties of the routing


  /** A one-word name is written in the plain form. */
  lemma OneWordPlain(p: SetProperty)
    requires |p.name| > 0 && forall i :: 0 <= i < |p.name| ==> !IsSpace(p.name[i])
    ensures Render(p) == PlainLine(p)
  {
    SplitWsWord(p.name);
  }

  /** The built-in properties are set first in the project script, in
      their order and on their own objects; none reaches a run. */
  lemma BuiltInsFirstInProject(m: Manifest)
    requires AllClassified(GetProperties(m))
    ensures var props := GetProperties(m);
            var b := BuiltIns(m.language);
            && RoutedTo(props[..3], Project) == [SetProperty(b[0][0], b[0][1], b[0][2]),
                                                 SetProperty(b[1][0], b[1][1], b[1][2]),
                                                 SetProperty(b[2][0], b[2][1], b[2][2])]
            && RoutedTo(props[..3], Synthesize) == []
            && RoutedTo(props[..3], Par) == []
  {
    var props := GetProperties(m);
    var b := BuiltIns(m.language);
    assert props[0] == b[0] && props[1] == b[1] && props[2] == b[2] by {
      assert props[..3] == b;
    }
    assert AllClassified(props[..0]);
    RoutedToSnoc(props, 0);
    RoutedToSnoc(props, 1);
    RoutedToSnoc(props, 2);
  }

  /** A `… options` name whose first word starts with
      `steps.synth_design` is set with the options form on `synth_1`. */
  lemma SynthOptionsLine(word: string, value: string)
    requires DottedPrefix(word, Steps + "." + SynthDesign)
    requires forall i :: 0 <= i < |word| ==> !IsSpace(word[i])
    ensures var name := word + " options";
            var p := SetProperty(name, value, "get_runs synth_1");
            Classify([name, value]) == Ok(Line(Synthesize, p)) && Render(p) == OptionLine(p)
  {
    var name := word + " options";
    SplitWsTwoWords(word, "options");
    assert name == word + " " + "options";
    assert DottedPrefix(word, Steps) by {
      assert word[..|Steps|] == word[..|Steps + "." + SynthDesign|][..|Steps|];
      assert word[|Steps|] == (Steps + "." + SynthDesign)[|Steps|];
    }
    assert TargetOf(word) == Synthesize;
    assert IsOptionsName(name);
  }

  /** Two words separated by one space split into those words. */
  lemma SplitWsTwoWords(a: string, b: string)
    requires |a| > 0 && forall i :: 0 <= i < |a| ==> !IsSpace(a[i])
    requires |b| > 0 && forall i :: 0 <= i < |b| ==> !IsSpace(b[i])
    ensures SplitWs(a + " " + b) == [a, b]
  {
    var s := a + " " + b;
    assert NonSpaceRun(s) == |a| by {
      assert forall i :: 0 <= i < |a| ==> s[i] == a[i];
      assert s[|a|] == ' ';
    }
    assert s[..|a|] == a;
    assert s[|a|..] == " " + b;
    assert SplitWs(" " + b) == SplitWs(b) by { assert (" " + b)[1..] == b; }
    SplitWsWord(b);
  }

  /** Any other `steps.…` word goes to the `impl_1` run. */
  lemma StepsGoToPar(word: string, value: string)
    requires DottedPrefix(word, Steps) && word != Steps
    requires !DottedPrefix(word, Steps + "." + SynthDesign)
    requires |word| > 0 && forall i :: 0 <= i < |word| ==> !IsSpace(word[i])
    ensures Classify([word, value]) == Ok(Line(Par, SetProperty(word, value, "get_runs impl_1")))
  {
    SplitWsWord(word);
  }

}
